=== FILE: README.md ===
# Portfolio site scripts, modelled in Dafny

This project models the client-side logic of a static portfolio site. The
site is hosted on GitHub Pages and its scripts run in the browser:

- **`sw.js`**, the service worker. It pre-caches the core pages on install.
  On activate it deletes every cache except the current `static-v3`. It
  answers same-origin navigations network-first, with a `/500.html`
  fallback, and answers other same-origin GETs cache-first.
- **`assets/projects.js`**, the projects page. It provides search and tag
  filtering, three sort modes, the "N projects" label and the tag chips.
- **`assets/project.js`**, the project detail page. It reads `?repo=`, finds
  the listed project it names or builds a stand-in, and derives the
  repository link, demo link, case-study path and previous/next links.
- **`assets/index.js`**, the home page. It builds hero and contact buttons,
  highlight pills, featured project cards, the timeline with its legend,
  and the active-section underline.
- **`assets/common.js`**, shared by every page. It covers the light/dark
  theme and its saved value, the "last updated" footer, the top navigation,
  and whether the service worker is registered.
- **`assets/about.js`**, the rotating tagline.

Everything is modelled as immutable values and pure functions, apart from
one method. Browser state is passed in explicitly and returned updated:

- the cache storage;
- the saved theme;
- the recorded dates.

Whatever the browser or the network would supply becomes a parameter:

- the network's answer to a request;
- whether a fetch succeeded;
- the parsed JSON;
- the `Date` parser.

The project's modules are listed below.

| module | file | models |
|---|---|---|
| `Wrappers` | `wrappers.dfy` | `Option` |
| `Strings` | `strings.dfy` | `toLowerCase`, `includes`, `join`, `split`, `trim`, decimal printing, the string order used for `localeCompare` |
| `Seqs` | `seqs.dfy` | `filter`, first-occurrence de-duplication with a `Set`, first index satisfying a test |
| `Sorting` | `sorting.dfy` | `Array.prototype.sort` with a comparator |
| `SiteData` | `site_data.dfy` | the JSON records (projects, links, timeline items, highlights) |
| `ServiceWorker` | `service_worker.dfy` | `sw.js` |
| `ProjectList` | `project_list.dfy` | `assets/projects.js` |
| `ProjectPage` | `project_page.dfy` | `assets/project.js` |
| `HomePage` | `home.dfy` | `assets/index.js` |
| `Common` | `common.dfy` | `assets/common.js` |
| `Tagline` | `tagline.dfy` | `assets/about.js` |

A JSON field that is absent, `null` or empty is represented by `""`, `[]`,
`false` or `0`. The scripts read every field as `field || default`, which
treats all of these alike.

The service worker's cache storage is modelled as:

- a list of bucket names in creation order;
- a map from each bucket name to that bucket's entries, keyed by request URL.

`caches.match` searches the buckets in creation order. Its key facts are
proved for an *active* storage, in which only `static-v3` can exist:

- `ServiceWorker.OfflineNavigationAnswered`: after a successful install and
  activation, however many requests have been served since, an offline
  navigation always gets an answer. The answer is either the page itself
  or the pre-cached `/500.html`.
- `ServiceWorker.OnlineThenOffline`: a page served once online is served
  from the cache when the network later fails. This holds for a GET
  navigation whose response is not a 206, which are the answers the cache
  accepts.

The project page's lookup loop, `ProjectPage.FindCurrent`, is the one
method. It is proved equal to a declarative reference, `ProjectPage.Lookup`:

1. The first entry whose `owner/repo` equals the query, ignoring case.
2. Failing that, the first entry whose repo alone equals it.

Four lemmas build on this:

- `ProjectPage.KeyResolves`: opening the page with a listed project's
  `owner/repo` finds that project. This needs two conditions: no two
  entries share a key, and the key has no surrounding whitespace, since the
  query value is trimmed before the lookup.
- `ProjectPage.KeyShowsProject`: the page then rendered is that project's
  view, with its own previous/next links.
- `ProjectPage.PrevRoundTrip` and `ProjectPage.NextRoundTrip`: the same
  holds for the previous/next links, down to the rendered page.
- `HomePage.DetailsLinkResolves`: the same holds for a home-page card's
  Details link.

One behaviour of the code is proved as written, by
`ProjectPage.SyntheticPage`. It concerns a `?repo=` value that matches no
listed project:

- The page builds a stand-in project whose repo is the whole value, under
  the default owner.
- Because that stand-in already has a repo, `normaliseRepoPair` never
  splits the value.
- So `?repo=someone/thing` links to
  `https://github.com/GregoryCarberry/someone/thing`.
- The splitting branch of `normaliseRepoPair` is reached only by a listed
  entry without a repo. The only query that can select such an entry is
  `owner/` with an empty second segment, which the exact owner/repo match
  accepts.

A second behaviour concerns the home page's active-section underline and is
stated by `HomePage.SectionLinks`, over the links that are in `#navLinks`
when the underline script runs:

- `assets/common.js:63` gives a `nav` entry without an `href` the `href` `#`.
- If such an entry is in the navigation when the underline script
  (`assets/index.js:344-348`) runs, the script looks up its `href` as a CSS
  selector. A bare `#` is not a valid one, so the lookup throws.
- The script then stops before any observer is set up, and no navigation
  link is underlined.
- Whether it is there depends on load timing. `loadNav` fills the
  navigation only after its `fetch` resolves, and it first clears whatever
  the navigation held. The underline script runs once, when `index.js`
  loads.

## Model

| member | source | states |
|---|---|---|
| ServiceWorker.HandleFetch | sw.js:47-97 | Cross-origin requests pass through. So do same-origin requests that are neither navigations nor GETs. In both cases there is no `fetch` and the storage is unchanged. The navigation test precedes the method test. Navigations go network-first, other GETs cache-first. Bucket names and stored keys are only ever added, and storage validity is kept. |
| ServiceWorker.NetworkFirst | sw.js:57-70 | A navigation always responds and always uses the network. If the network answers, that response is returned and goes through `ServiceWorker.Store`. For a GET request with a response that is not a 206, that means it is stored under the request URL in `static-v3`. If the network fails, the storage is unchanged and the answer is the navigation fallback. |
| ServiceWorker.NavigationFallback | sw.js:66-69 | When offline, the answer is the cached entry for the request if there is one. Otherwise it is the cached `/500.html`, or nothing if that is missing too. |
| ServiceWorker.CacheFirst | sw.js:74-96 | On a cache hit, the cached entry is returned without touching the network or the storage. On a miss, the network's answer is returned and goes through `ServiceWorker.Store`, so it is stored under the request URL exactly when it is not a 206 response. On a miss with the network down, `/500.html` is returned exactly when Accept contains `text/html`; otherwise nothing is returned. |
| ServiceWorker.AcceptsHtml | sw.js:88-89 | A request accepts HTML exactly when `text/html` occurs somewhere in its Accept header. A request without the header never does. |
| ServiceWorker.Match | sw.js:68 | `caches.match(request)` never matches a non-GET request. A GET request gets what a lookup of its URL across the buckets finds. |
| ServiceWorker.MatchIn | sw.js:77 | The match is the entry for the key in the first bucket, in creation order, that holds the key. It is none exactly when no bucket holds the key. |
| ServiceWorker.Open | sw.js:27 | Opening a bucket creates it, empty and last in creation order, only if it is missing; otherwise the storage is unchanged. No other bucket's entries change and validity is kept. |
| ServiceWorker.Store | sw.js:62-63 | The response is stored under the request URL in `static-v3` exactly when the Cache API accepts it: a GET request and not a 206 response. Other buckets are unchanged. |
| ServiceWorker.Install | sw.js:24-31 | Install succeeds exactly when every core asset was fetched with a response `addAll` accepts: an ok status other than a partial 206. Every core asset, `/500.html` included, is then in `static-v3` with the fetched response. Its keys are then exactly the old keys plus the core assets. A failed install adds nothing. Other buckets are untouched. |
| ServiceWorker.Delete | sw.js:40 | Removes the named bucket and its name, and nothing else. |
| ServiceWorker.DeleteEach | sw.js:37-41 | Removes exactly the listed buckets and leaves the rest unchanged. |
| ServiceWorker.Activate | sw.js:33-44 | Afterwards only `static-v3` can remain, with exactly the entries it had, and no other name survives. |
| ServiceWorker.ActiveNames | sw.js:7-8 | After activation the bucket list is empty or exactly `["static-v3"]`. |
| ServiceWorker.ActiveMatch | sw.js:77 | Once active, a lookup consults `static-v3` alone. |
| ServiceWorker.ServeKeepsEntries | sw.js:47-97 | Any sequence of fetches keeps the storage active and keeps every stored key. |
| ServiceWorker.OfflineNavigationAnswered | sw.js:10-69 | After a successful install and activation, and any fetches since, an offline navigation always gets a response. |
| ServiceWorker.OnlineThenOffline | sw.js:57-69 | A GET navigation the network answered with a response that is not a 206 is answered with the same response from the cache when the network later fails. |
| Strings.Lower | assets/projects.js:19 | Keeps the length. Each upper-case letter becomes the letter 32 code points on, its lower-case partner, and every other character is kept. |
| Strings.LowerEqIff | assets/project.js:68-73 | Two strings are equal once lower-cased exactly when they have the same length and agree character by character up to case. |
| Strings.ContainsIffOccurs | assets/projects.js:88 | `includes` holds exactly when the needle occurs at some position. |
| Strings.Join | assets/projects.js:80-86 | The empty list joins to the empty string and a single part to itself. |
| Strings.Split | assets/project.js:18 | There is at least one piece and no piece contains the separator. There are two or more pieces exactly when the separator occurs. |
| Strings.JoinSplit | assets/project.js:18 | Joining the pieces of a split with the separator gives back the string. |
| Strings.SplitJoin | assets/project.js:17-20 | Splitting a join of separator-free pieces gives back the pieces. |
| Strings.Trim | assets/project.js:8 | The result is the input without surrounding whitespace, which is the ECMAScript whitespace and line terminators. It has no whitespace at either end. |
| Strings.TrimIdempotent | assets/project.js:8 | Trimming twice is trimming once. |
| Strings.NatToString | assets/projects.js:136 | The decimal form is non-empty, all digits, and has no leading zero. |
| Strings.NatToStringRoundTrip | assets/projects.js:136 | Reading the decimal form back gives the number. |
| Strings.StrLeqTotal | assets/projects.js:32 | The string order standing for `localeCompare` is total. |
| Strings.StrLeqTransitive | assets/projects.js:32 | The string order is transitive. |
| Strings.StrLeqAntisymmetric | assets/projects.js:32 | The string order is antisymmetric. |
| Seqs.Filter | assets/projects.js:129-131 | Keeps exactly the elements that pass, with their multiplicities, in order. |
| Seqs.Dedup | assets/index.js:243-250 | Each value once, the same values, in order of first occurrence. |
| Seqs.DistinctIffSingleCounts | assets/projects.js:28-32 | A list has no repeats exactly when no value occurs twice in its multiset. |
| Seqs.FirstWhere | assets/project.js:65-76 | The index of the first element passing the test. It is none exactly when no element passes. |
| Sorting.Sort | assets/projects.js:97-115 | The sorted copy is a permutation of the input. |
| Sorting.SortSorted | assets/projects.js:97-115 | With a total-preorder comparator the result is ordered. |
| SiteData.OwnerOf | assets/project.js:13 | A given owner is kept, else the owner is `GregoryCarberry`. |
| SiteData.InSlot | assets/index.js:41-49 | The links of one slot are exactly those whose `slot` is that name, each as often as it is listed, in file order. |
| ProjectList.Normalise | assets/projects.js:18-20 | `normalise` keeps the length, moves each upper-case letter to its lower-case partner and keeps every other character, so an absent value becomes `""`. |
| ProjectList.NormaliseIdempotent | assets/projects.js:18-20 | Normalising twice is normalising once. |
| ProjectList.MatchesSearch | assets/projects.js:76-89 | An empty query matches. Otherwise the lower-cased query must occur in the lower-cased `title + " " + blurb + " " + tags.join(" ")`, which is what the normalised parts joined with spaces amount to. |
| ProjectList.TitleHitMatches | assets/projects.js:76-89 | A query found in the title always matches. |
| ProjectList.MatchesTag | assets/projects.js:91-94 | No tag, or an empty one, matches everything. Otherwise some tag of the project must equal it, ignoring case. |
| ProjectList.ModeOf | assets/projects.js:99-113 | Any select value other than `alpha` and `recent` means featured-first. |
| ProjectList.ComparatorTotalPreorder | assets/projects.js:99-113 | All three comparators are total preorders. |
| ProjectList.SortProjects | assets/projects.js:96-116 | The result is a permutation of the input in the order of the mode. `alpha` is ordered by lower-cased title and `recent` newest first. `featured` puts featured projects first, ordered by title within each group. |
| ProjectList.CountLabel | assets/projects.js:135-138 | The label is the decimal count, a space and `project`, with an `s` added exactly when the count is not 1. Its first word reads back as the count. |
| ProjectList.Passes | assets/projects.js:129-131 | A project is shown exactly when both the search and the tag filter keep it, stated through their case-insensitive definitions. |
| ProjectList.RenderProjects | assets/projects.js:120-139 | The cards are exactly the loaded projects passing search and tag, with multiplicities. They are in the order of the current sort mode, which defaults to featured-first. The count label counts them. |
| ProjectList.AllTags | assets/projects.js:28-31 | Holds a value exactly when some project has that tag. |
| ProjectList.DistinctTags | assets/projects.js:28-32 | Holds every tag of some project, each once, in collation order. |
| ProjectList.ChipsFor | assets/projects.js:65-71 | The "All" chip comes first, then one chip per tag in order. |
| ProjectList.MakeChip | assets/projects.js:36-37 | A chip keeps its label and value. The "All" chip is highlighted exactly when no tag is selected, and a tag's chip exactly when that tag is selected. |
| ProjectList.ChipsForDistinct | assets/projects.js:36-37 | Chips for distinct tags carry distinct values, so at most one can be active. |
| ProjectList.ChipsForHas | assets/projects.js:69-71 | A tag has a chip exactly when it is in the list. |
| ProjectList.TagChips | assets/projects.js:24-72 | "All" comes first and is active when no tag is selected. There is one chip per distinct tag, in order. A chip is active exactly when its value is the selected tag, so at most one chip is active. |
| ProjectList.ChipNeverEmpties | assets/projects.js:56-60 | With no search text, clicking any chip leaves at least one project on the page. |
| ProjectPage.RepoParam | assets/project.js:5-9 | A missing parameter gives `""`. Otherwise the value is trimmed. |
| ProjectPage.Before | assets/project.js:18-20 | The text before the first separator: all of the string when there is none. Otherwise it is a prefix without the separator, followed in the string by the separator. |
| ProjectPage.NormaliseRepoPair | assets/project.js:12-26 | A project with a repo keeps its owner and repo. Without one, a query with no `/` becomes the repo. Otherwise the text before the first `/` becomes the owner, when non-empty, and the next segment the repo. |
| ProjectPage.RepoPairRoundTrip | assets/project.js:16-21 | For a repo-less entry, `owner/repo` gives back exactly that owner and repo. |
| ProjectPage.ExactMatch | assets/project.js:66-69 | An entry matches exactly when the query is non-empty and equals its `owner/repo` up to case, character by character. |
| ProjectPage.RepoMatch | assets/project.js:67-73 | An entry matches by repo alone exactly when it has a repo equal to the query up to case. |
| ProjectPage.Lookup | assets/project.js:61-76 | Returns the first exact `owner/repo` match, ignoring case, if any. Otherwise it returns the first repo-only match, or none. An empty query finds nothing. |
| ProjectPage.FindCurrent | assets/project.js:62-76 | The loop, with its early `break` and its "only if none yet" guard, returns exactly the reference lookup. |
| ProjectPage.LookupExactAt | assets/project.js:69-72 | An exact match with none before it is the result. |
| ProjectPage.LookupRepoOnly | assets/project.js:73-75 | Without exact matches, the first repo match is the result. |
| ProjectPage.Resolve | assets/project.js:52-94 | An empty list gives "could not be loaded", even when a query is given. Otherwise an empty query gives "no match". A non-empty list shows a listed project exactly when the lookup finds one, and then exactly the one it finds. An unmatched query gives a stand-in titled and named after the query, under the default owner. |
| ProjectPage.SyntheticProject | assets/project.js:78-85 | The stand-in is titled and named after the query and owned by the default owner. It has no blurb, tags, case study, demo or link. |
| ProjectPage.KeyResolves | assets/project.js:61-76 | Querying a listed project's own `owner/repo` finds it or an earlier entry with the same key. When keys are unique it finds exactly that project. The key must have no surrounding whitespace. |
| ProjectPage.Heading | assets/project.js:103 | The heading is the title when there is one, else the repo when there is one, else `Project`. |
| ProjectPage.RepoUrl | assets/project.js:120 | The link is empty exactly when owner or repo is. Otherwise it is on `https://github.com/`. |
| ProjectPage.RepoUrlParts | assets/project.js:120 | Owner and repo can be read back from the link. |
| ProjectPage.DemoLink | assets/project.js:130 | The demo link is the first non-empty of `demo`, `liveDemo` and `url`. It is empty only if all three are. |
| ProjectPage.CaseStudyPath | assets/project.js:192-198 | There is a path exactly when there is a repo. It is `/case-studies/` followed by the trimmed `caseStudy` when that is non-empty, else by `<repo>.md`. |
| ProjectPage.PrevLink | assets/project.js:165-177 | There is a previous link exactly when the list has two or more entries and a listed project is shown. The project must not be first, and the one before it must have a repo. The link carries that project's `owner/repo`. |
| ProjectPage.NextLink | assets/project.js:178-187 | The same rule as the previous link, for the following entry. |
| ProjectPage.PrevRoundTrip | assets/project.js:165-177 | With unique keys that have no surrounding whitespace, following the previous link resolves to the entry before, and the page rendered is that entry's view. |
| ProjectPage.NextRoundTrip | assets/project.js:178-187 | With unique keys that have no surrounding whitespace, following the next link resolves to the entry after, and the page rendered is that entry's view. |
| ProjectPage.KeyShowsProject | assets/project.js:52-76 | With unique keys that have no surrounding whitespace, opening the page with a listed project's own `owner/repo` renders that project, with the previous/next links of its position. |
| ProjectPage.Show | assets/project.js:96-198 | The view of the current project, with the repository pair normalised from the query. The heading comes from `Heading`, and the page title is the heading plus the site suffix. The blurb and tags are the project's own. The repository link, demo link and case-study path are those of the project and pair. The previous/next links are those of the resolution. There is a repository link exactly when there is a case-study path. |
| ProjectPage.RenderPage | assets/project.js:52-198 | "Not found" with the right message exactly when the list is empty or there is no query. A listed query renders the looked-up project with the resolution's previous/next links. An unlisted query renders the stand-in, which gets no previous/next links. |
| ProjectPage.SyntheticPage | assets/project.js:78-85 | An unmatched query is shown whole under the default owner, with repository link `https://github.com/GregoryCarberry/<query>` and case study `<query>.md`. |
| ProjectPage.StandInView | assets/project.js:78-85 | The stand-in's heading is the query, its repository link is under the default owner, and its case study is `<query>.md`. |
| HomePage.MkBtn | assets/index.js:5-30 | `href` defaults to `#`. The button is external exactly when `href` starts with `http://` or `https://`. It is primary exactly when the variant is `primary`. |
| HomePage.IsExternal | assets/index.js:10 | `/^https?:\/\//` holds exactly when the text starts with `http`, an optional `s`, then `://`. |
| HomePage.HeroButtons | assets/index.js:39-44 | One button per hero link, in order, made by `mkBtn` from its label, `href` and variant. |
| HomePage.ContactButtons | assets/index.js:45-50 | One button per contact link, in order, made by `mkBtn` from its label and `href` with no variant, so none is primary. |
| HomePage.HighlightText | assets/index.js:79-85 | A string gives itself. An object gives its `label`, else its `text`. Any other value gives nothing. |
| HomePage.Pills | assets/index.js:78-91 | The pills are the non-empty highlight texts, each as often as it occurs, in order. No pill is empty. |
| HomePage.HighlightsStrip | assets/index.js:69-98 | A load failure gives the error message. A non-list or empty list gives "No highlights yet". Otherwise the pills are shown. |
| HomePage.PillsOfBlank | assets/index.js:86 | Blank highlights produce no pill. |
| HomePage.BlankHighlightsShowNothing | assets/index.js:78-94 | A non-empty list of blank highlights leaves an empty strip without the "No highlights yet" message. |
| HomePage.CardLink | assets/index.js:143-145 | The card link is `link`, else `https://github.com/<owner>/<repo>` when there is a repo, else `#`. |
| HomePage.CardLinkMatchesDetailPage | assets/index.js:143-145 | Without its own link, a card with a repo points where the detail page's repository link points. |
| HomePage.CardTitle | assets/index.js:156 | The card title is `title` when there is one, else the repo. |
| HomePage.DetailsQuery | assets/index.js:173-186 | There is a Details link exactly when there is a repo, and it carries `owner/repo`. |
| HomePage.DetailsLinkResolves | assets/index.js:176 | With unique keys that have no surrounding whitespace, a card's Details link opens that project's page. |
| HomePage.CategoryOf | assets/index.js:248 | A timeline item's category is its own when it has one, else `other`. |
| HomePage.Categories | assets/index.js:247-248 | The categories of the timeline items, in item order. |
| HomePage.Legend | assets/index.js:243-259 | Each category appears once, with missing ones counted as `other`, in order of first appearance. |
| HomePage.IconFor | assets/index.js:234-240 | A known category gets its own icon. Any other category gets the `other` icon. |
| HomePage.EntryOf | assets/index.js:267-273 | A timeline row takes `date` when present, else `when`. It takes `title` when present, else `text`. It has the summary, the category and that category's icon. |
| HomePage.LegendRows | assets/index.js:251-258 | Each legend row pairs a category with its icon. |
| HomePage.EntriesInLegend | assets/index.js:243-273 | Every row's category and icon appear in the legend. |
| HomePage.SectionLinks | assets/index.js:347-348 | The observed links are those whose `href` starts with `#`, each as often as it occurs, in order. When one of them is not a valid selector the script stops and nothing is observed. A bare `#` always causes this, and it is what a `nav` entry without `href` gets if that entry is present when the script runs. |
| HomePage.SetActive | assets/index.js:350-355 | A link is marked exactly when its `href` is `#` plus the section id. |
| HomePage.SetActiveSingle | assets/index.js:350-355 | With distinct hrefs, only the section's own link is marked. |
| Common.InitialTheme | assets/common.js:8-15 | The initial theme is light exactly when the saved value is `light`. |
| Common.Persisted | assets/common.js:20 | Dark is stored as `dark` and light as `light`. |
| Common.PersistedRoundTrip | assets/common.js:8-20 | Reading back a stored value gives the theme it was stored for. |
| Common.Boot | assets/common.js:8-15 | Loading keeps the saved value and is light exactly for `light`. |
| Common.Toggle | assets/common.js:17-21 | A click flips the theme and saves `dark` exactly when the new theme is dark. |
| Common.ClicksKeepConsistent | assets/common.js:8-21 | After any number of clicks, reloading shows the current theme. The theme equals the initial one exactly after an even number of clicks. |
| Common.ToggleThenReload | assets/common.js:8-21 | Reloading after a click shows the theme the click chose, with the saved value it stored. |
| Common.RecordLastUpdated | assets/common.js:32-37 | Only a present, non-empty `last-modified` header appends a date. |
| Common.MaxTime | assets/common.js:41-43 | The maximum is one of the times and at least every time. |
| Common.ValidTimes | assets/common.js:42 | The times are read off when no date is invalid. |
| Common.SetLastUpdated | assets/common.js:38-48 | Nothing happens with no dates. Any invalid date makes the formatting fail. Otherwise the latest recorded time is shown. |
| Common.RecordNeverLowers | assets/common.js:32-48 | Recording another date never moves the shown time backwards. |
| Common.NavItems | assets/common.js:59-66 | One entry per `nav` link, in order, with `href` defaulting to `#`. |
| Common.NavLinksAllShown | assets/common.js:59-66 | Every `nav` link is shown. |
| Common.NavItemsAreNavLinks | assets/common.js:59-66 | Every entry comes from a `nav` link. |
| Common.ShouldRegister | assets/common.js:77-84 | The worker is registered exactly when it is supported and the host is `gregorycarberry.github.io`, so never on `localhost`. |
| Tagline.Start | assets/about.js:13-20 | An empty list does nothing. Otherwise the first tagline is shown, and the interval starts only when there are two or more. |
| Tagline.Tick | assets/about.js:22-25 | The index stays in range and moves to the next tagline, wrapping to 0 after the last. |
| Tagline.Run | assets/about.js:22-25 | After any number of ticks the index is in range and its tagline is shown. |
| Tagline.RunFirstRound | assets/about.js:22-25 | The k-th tick of the first round shows tagline k. |
| Tagline.RunPeriodic | assets/about.js:23 | The rotation repeats after as many ticks as there are taglines. That this is the shortest period follows from `Tagline.RunFirstRound`. |
| Tagline.RotationCoversAll | assets/about.js:22-25 | Every tagline is shown, and the first returns after exactly as many ticks as there are taglines. |
| Tagline.SiteRotates | assets/about.js:6-25 | The site's four taglines rotate, and the fifth tick shows the first again. |

## Left out

- Strings.Lower: models `toLowerCase` on ASCII letters only. Non-ASCII case mapping, including the characters whose lower case is longer, is not modelled.
- Strings.StrLeq: stands for `localeCompare`. It is a fixed code-point lexicographic order. The real order depends on the locale, and the proofs use only that the order is total and transitive.
- Sorting.Sort: is a stable insertion sort. The contracts state a permutation and an order but not stability, which is the browser's business.
- ProjectList.SortProjects: models `recent` on integer timestamps with a missing date as 0. An unparsable date (`NaN` in the comparator) is not modelled.
- ServiceWorker.Install: takes as given that `cache.addAll` stores all assets or none, since that is a property of the browser.
- Strings.Join: its own contract covers lists of at most one part. Longer lists are pinned down only together with `Strings.Split`, through `Strings.JoinSplit` and `Strings.SplitJoin`.
- HomePage.SectionLinks: models one run of the underline script over the links present when it runs. Which links those are depends on whether `loadNav`'s `fetch` has resolved, and that load timing is not modelled. It also takes the browser's selector grammar as a parameter and fixes only that a bare `#` is not a valid selector. The `IntersectionObserver` support test and links whose section is missing are not modelled, because they only decide which elements get observed.
- The service worker's cache writes are fire-and-forget. They are modelled as landing before the next event, not as concurrent interleavings.
- The Cache API's `put` is modelled as rejecting only non-GET requests and 206 responses. `Vary` handling and the other rejections are left out.
- A request's `sameOrigin` flag stands for the URL origin comparison. URL parsing is not modelled.
- `skipWaiting` and `clients.claim` change only which worker controls which page, so they are left out.
- ProjectPage.KeyResolves: a listed entry whose `owner/repo` has surrounding whitespace is not promised to resolve to itself, because the query value is trimmed (`assets/project.js:8`) and the trimmed key no longer matches. The same condition applies to `ProjectPage.PrevRoundTrip`, `ProjectPage.NextRoundTrip`, `ProjectPage.KeyShowsProject` and `HomePage.DetailsLinkResolves`.
- ProjectPage.RepoParam: takes the already-decoded query value. URL decoding and `encodeURIComponent` are not modelled. Both the Details link and the previous/next links carry the `owner/repo` text. The round-trip lemmas assume that text survives the URL unchanged, so `owner/repo` values containing `&`, `#`, `+` or `%` are not modelled. The Details link's `href` is not encoded at all, so for it that assumption is stronger still.
- The page-loading failure paths are modelled only as far as the scripts distinguish them. On the detail page, a failed `fetch` and a non-list JSON value both give the empty list. On the home page, `HomePage.HighlightsData` separates them. A failed `fetch` on the projects page leaves the grid's error message, which is not modelled.
- HomePage.IconFor: does not model JavaScript object lookup through the prototype chain. In the source, a category such as `constructor` finds an inherited property rather than the `other` icon.
- HomePage.MkBtn: models `/^https?:\/\//` as a case-sensitive prefix test, as the regular expression has no `i` flag.
- Common.SetLastUpdated: takes the parsed times as given. `Date` parsing is a parameter of `Common.RecordLastUpdated`. `Intl.DateTimeFormat` formatting is not modelled beyond the fact that it throws on an invalid date.
- The DOM is not modelled: element creation, class names, HTML templating and missing elements. Neither are `localStorage` as a store, the GitHub REST API calls (stars and forks), `marked`, `hljs` and `mermaid`, or the footer year.
- The timeline auto-scroll (`assets/index.js:294-334`) is not modelled. It is floating-point pixel arithmetic driven by animation frames and the clock.
- The IntersectionObserver ratio sort (`assets/index.js:357-360`) is not modelled. It is floating-point and driven by the browser.
- The home page's profile and skills loaders are not modelled. They only copy JSON fields into the page.
- The reduced-motion setting (`assets/common.js:88-93`) is not modelled.
- The projects page's own cards (`assets/projects.js:149-188`) are not modelled. They only template fields (`page || "#"`, `title || repo`).
- `assets/certifications.js` and `assets/tailwind-config.js` are not part of this model. The first is DOM rendering of JSON and the second is styling configuration.

=== FILE: common.dfy ===
/** The bits every page shares, `assets/common.js`: the light/dark theme and
    its saved value, the "last updated" footer, the top navigation, and the
    decision to register the service worker. */
module Common {
  import opened Wrappers
  import opened SiteData

  // ---------------------------------------------------------------- theme

  datatype Theme = Dark | Light

  /** The theme a page starts in for the saved `theme` value: light only when
      the user chose it, dark for `"dark"`, for nothing saved and for anything else. */
  function InitialTheme(saved: Option<string>): (t: Theme)
    ensures t == Light <==> saved == Some("light")
  {
    if saved == Some("light") then Light else Dark
  }

  /** The value the toggle stores for a theme. */
  function Persisted(t: Theme): (v: string)
    ensures v == "dark" <==> t == Dark
    ensures v == "light" <==> t == Light
  {
    match t
    case Dark => "dark"
    case Light => "light"
  }

  /** A stored value brings back the theme it was stored for. */
  lemma PersistedRoundTrip(t: Theme)
    ensures InitialTheme(Some(Persisted(t))) == t
  {
  }

  /** The page's theme together with the saved value. */
  datatype ThemeState = ThemeState(theme: Theme, saved: Option<string>)

  /** Loading a page. */
  function Boot(saved: Option<string>): (s: ThemeState)
    ensures s.saved == saved
    ensures s.theme == Light <==> saved == Some("light")
  {
    ThemeState(InitialTheme(saved), saved)
  }

  /** A click on the toggle: flip the class and save the new theme. */
  function Toggle(s: ThemeState): (s': ThemeState)
    ensures s'.theme != s.theme
    ensures s'.saved == Some(if s'.theme == Dark then "dark" else "light")
  {
    var t := if s.theme == Dark then Light else Dark;
    ThemeState(t, Some(Persisted(t)))
  }

  /** Reloading the page reproduces the theme: the saved value and the shown theme agree. */
  ghost predicate Consistent(s: ThemeState) {
    InitialTheme(s.saved) == s.theme
  }

  /** The state after `clicks` clicks on a freshly loaded page. */
  function AfterClicks(saved: Option<string>, clicks: nat): ThemeState {
    if clicks == 0 then Boot(saved) else Toggle(AfterClicks(saved, clicks - 1))
  }

  /** Any number of clicks keeps the saved value in step with the theme, and
      the theme is the initial one exactly after an even number of clicks. */
  lemma {:induction false} ClicksKeepConsistent(saved: Option<string>, clicks: nat)
    ensures Consistent(AfterClicks(saved, clicks))
    ensures AfterClicks(saved, clicks).theme == InitialTheme(saved) <==> clicks % 2 == 0
  {
    if clicks > 0 {
      ClicksKeepConsistent(saved, clicks - 1);
    }
  }

  /** Reloading after a click shows the theme the click chose. */
  lemma ToggleThenReload(s: ThemeState)
    ensures Boot(Toggle(s).saved) == Toggle(s)
  {
  }

  // ---------------------------------------------------------------- last updated

  /** `__recordLastUpdated(res)`: a non-empty `last-modified` header is parsed
      and kept; `parse` is the `Date` constructor, `None` for an invalid date.
      A response without headers records nothing. */
  function RecordLastUpdated(dates: seq<Option<int>>, header: Option<string>, parse: string -> Option<int>): (r: seq<Option<int>>)
    ensures header.Some? && header.value != "" ==> r == dates + [parse(header.value)]
    ensures header.None? || header.value == "" ==> r == dates
  {
    if header.Some? && header.value != "" then dates + [parse(header.value)] else dates
  }

  /** What `__setLastUpdated` does to the footer. */
  datatype Footer =
    | Unchanged            // nothing recorded
    | Shows(latest: int)   // the latest recorded time
    | Fails                // an invalid date makes the maximum NaN, and formatting it throws

  /** The largest of a non-empty list of times. */
  function MaxTime(ts: seq<int>): (m: int)
    requires |ts| > 0
    ensures m in ts
    ensures forall i :: 0 <= i < |ts| ==> ts[i] <= m
  {
    if |ts| == 1 then ts[0]
    else
      var rest := MaxTime(ts[1..]);
      assert forall i :: 1 <= i < |ts| ==> ts[i] == ts[1..][i - 1];
      if ts[0] >= rest then ts[0] else rest
  }

  /** The recorded times, when all are valid. */
  function ValidTimes(dates: seq<Option<int>>): (ts: Option<seq<int>>)
    ensures ts.Some? <==> forall i :: 0 <= i < |dates| ==> dates[i].Some?
    ensures ts.Some? ==> |ts.value| == |dates| && forall i :: 0 <= i < |dates| ==> ts.value[i] == dates[i].value
  {
    if forall i :: 0 <= i < |dates| ==> dates[i].Some? then
      Some(seq(|dates|, i requires 0 <= i < |dates| && dates[i].Some? => dates[i].value))
    else None
  }

  /** `__setLastUpdated()`. */
  function SetLastUpdated(dates: seq<Option<int>>): (f: Footer)
    ensures f.Unchanged? <==> |dates| == 0
    ensures f.Fails? <==> exists i :: 0 <= i < |dates| && dates[i].None?
    ensures f.Shows? ==> Some(f.latest) in dates
    ensures f.Shows? ==> forall i :: 0 <= i < |dates| ==> dates[i].Some? && dates[i].value <= f.latest
  {
    if |dates| == 0 then Unchanged
    else
      match ValidTimes(dates)
      case None => Fails
      case Some(ts) =>
        var m := MaxTime(ts);
        var k :| 0 <= k < |ts| && ts[k] == m;
        assert dates[k] == Some(m);
        Shows(m)
  }

  /** Recording another valid date never moves the shown time backwards. */
  lemma RecordNeverLowers(dates: seq<Option<int>>, header: Option<string>, parse: string -> Option<int>)
    requires SetLastUpdated(dates).Shows?
    requires SetLastUpdated(RecordLastUpdated(dates, header, parse)).Shows?
    ensures SetLastUpdated(dates).latest <= SetLastUpdated(RecordLastUpdated(dates, header, parse)).latest
  {
    var after := RecordLastUpdated(dates, header, parse);
    var k :| 0 <= k < |dates| && dates[k] == Some(SetLastUpdated(dates).latest);
    assert after[k] == dates[k];
  }

  // ---------------------------------------------------------------- navigation

  datatype NavItem = NavItem(text: string, href: string)

  /** The top navigation: the `nav` links in file order, `href` defaulting to `#`. */
  function NavItems(links: seq<Link>): (items: seq<NavItem>)
    ensures |items| == |InSlot(links, "nav")|
    ensures forall i :: 0 <= i < |items| ==>
      var l := InSlot(links, "nav")[i];
      && items[i].text == l.text
      && items[i].href != ""
      && (l.href != "" ==> items[i].href == l.href)
      && (l.href == "" ==> items[i].href == "#")
  {
    var ls := InSlot(links, "nav");
    seq(|ls|, i requires 0 <= i < |ls| => NavItem(ls[i].text, if ls[i].href != "" then ls[i].href else "#"))
  }

  /** Every `nav` link is shown, with its label. */
  lemma NavLinksAllShown(links: seq<Link>, l: Link)
    requires l in links && l.slot == "nav"
    ensures exists i :: 0 <= i < |NavItems(links)| && NavItems(links)[i].text == l.text
  {
    var ls := InSlot(links, "nav");
    assert l in ls;
    var i :| 0 <= i < |ls| && ls[i] == l;
    assert NavItems(links)[i].text == l.text;
  }

  /** Every navigation entry is the label of a `nav` link. */
  lemma NavItemsAreNavLinks(links: seq<Link>, i: nat)
    requires i < |NavItems(links)|
    ensures exists l :: l in links && l.slot == "nav" && l.text == NavItems(links)[i].text
  {
    var ls := InSlot(links, "nav");
    assert ls[i] in ls;
  }

  // ---------------------------------------------------------------- service worker registration

  const SITE_HOST: string := "gregorycarberry.github.io"

  /** Whether the page registers `sw.js`: only on the published site, and only
      where the browser supports service workers. */
  function ShouldRegister(supported: bool, hostname: string): (r: bool)
    ensures r ==> supported
    ensures r <==> supported && hostname == SITE_HOST
    ensures hostname == "localhost" || hostname == "127.0.0.1" ==> !r
  {
    supported && hostname == SITE_HOST
  }
}

=== FILE: home.dfy ===
/** The home page, `assets/index.js`: hero and contact buttons, the
    highlights strip, the featured project cards, the timeline with its
    legend, and the active-section underline in the navigation. */
module HomePage {
  import opened Wrappers
  import opened Strings
  import opened SiteData
  import Seqs
  import ProjectPage

  // ---------------------------------------------------------------- buttons

  /** A button made by `mkBtn`. `external` stands for `target="_blank"` with
      `rel="noopener"`; `primary` for the primary colour classes. */
  datatype Button = Button(text: string, href: string, external: bool, primary: bool)

  /** The test `/^https?:\/\//` on the `href`, read piece by piece: `http`,
      an optional `s`, then `://`. */
  function IsExternal(href: string): (b: bool)
    ensures b <==>
      (|href| >= 7 && href[..4] == "http"
        && (href[4..7] == "://" || (|href| >= 8 && href[4..8] == "s://")))
  {
    StartsWith(href, "http://") || StartsWith(href, "https://")
  }

  /** `mkBtn(label, href, variant)`; an absent variant is the empty string. */
  function MkBtn(text: string, href: string, variant: string): (b: Button)
    ensures b.text == text
    ensures b.href != ""
    ensures href != "" ==> b.href == href
    ensures href == "" ==> b.href == "#"
    ensures b.external <==> IsExternal(href)
    ensures b.external ==> b.href == href
    ensures b.primary <==> variant == "primary"
  {
    Button(text, if href != "" then href else "#", IsExternal(href), variant == "primary")
  }

  /** The `heroButtons` row: one button per hero link, keeping its variant. */
  function HeroButtons(links: seq<Link>): (bs: seq<Button>)
    ensures |bs| == |InSlot(links, "hero")|
    ensures forall i :: 0 <= i < |bs| ==>
      var l := InSlot(links, "hero")[i];
      bs[i] == MkBtn(l.text, l.href, l.variant)
  {
    var ls := InSlot(links, "hero");
    seq(|ls|, i requires 0 <= i < |ls| => MkBtn(ls[i].text, ls[i].href, ls[i].variant))
  }

  /** The `contactButtons` row: one button per contact link; no variant is passed. */
  function ContactButtons(links: seq<Link>): (bs: seq<Button>)
    ensures |bs| == |InSlot(links, "contact")|
    ensures forall i :: 0 <= i < |bs| ==>
      var l := InSlot(links, "contact")[i];
      bs[i] == MkBtn(l.text, l.href, "")
    ensures forall i :: 0 <= i < |bs| ==> !bs[i].primary
  {
    var ls := InSlot(links, "contact");
    seq(|ls|, i requires 0 <= i < |ls| => MkBtn(ls[i].text, ls[i].href, ""))
  }

  // ---------------------------------------------------------------- highlights

  /** The text of one highlight: the string itself, `label || text` for an
      object, nothing for any other value. */
  function HighlightText(h: Highlight): (t: string)
    ensures h.TextHighlight? ==> t == h.text
    ensures h.ObjectHighlight? && h.labelField != "" ==> t == h.labelField
    ensures h.ObjectHighlight? && h.labelField == "" ==> t == h.textField
    ensures h.OtherHighlight? ==> t == ""
    ensures t == "" <==> match h
      case TextHighlight(s) => s == ""
      case ObjectHighlight(l, s) => l == "" && s == ""
      case OtherHighlight => true
  {
    match h
    case TextHighlight(s) => s
    case ObjectHighlight(l, s) => if l != "" then l else s
    case OtherHighlight => ""
  }

  /** The text of each highlight, in order. */
  function HighlightTexts(items: seq<Highlight>): (ts: seq<string>)
    ensures |ts| == |items|
    ensures forall i :: 0 <= i < |items| ==> ts[i] == HighlightText(items[i])
  {
    seq(|items|, i requires 0 <= i < |items| => HighlightText(items[i]))
  }

  /** The pills shown for a list of highlights: every non-empty text, as often
      as it occurs, in order. */
  function Pills(items: seq<Highlight>): (ps: seq<string>)
    ensures forall i :: 0 <= i < |ps| ==> ps[i] != ""
    ensures forall t :: multiset(ps)[t] == if t != "" then multiset(HighlightTexts(items))[t] else 0
    ensures Seqs.IsSubseq(ps, HighlightTexts(items))
    ensures forall t :: t in ps <==> t != "" && exists i :: 0 <= i < |items| && HighlightText(items[i]) == t
  {
    var texts := HighlightTexts(items);
    var ps := Seqs.Filter(texts, (t: string) => t != "");
    forall t ensures t in ps <==> t != "" && exists i :: 0 <= i < |items| && HighlightText(items[i]) == t {
      Seqs.FilterMember(texts, (t: string) => t != "", t);
      if t in texts {
        var i :| 0 <= i < |texts| && texts[i] == t;
        assert HighlightText(items[i]) == t;
      }
    }
    ps
  }

  /** What `highlights.json` yielded: an unusable response, a value that is not
      a list, or a list. */
  datatype HighlightsData = Unavailable | NotAList | Items(items: seq<Highlight>)

  datatype Strip = LoadError | NoHighlights | PillRow(pills: seq<string>)

  /** `loadHighlights`: an empty or non-list value reads "No highlights yet." */
  function HighlightsStrip(data: HighlightsData): (s: Strip)
    ensures s.LoadError? <==> data.Unavailable?
    ensures s.NoHighlights? <==> data.NotAList? || data == Items([])
    ensures s.PillRow? ==> data.Items? && s.pills == Pills(data.items)
  {
    match data
    case Unavailable => LoadError
    case NotAList => NoHighlights
    case Items(items) => if |items| == 0 then NoHighlights else PillRow(Pills(items))
  }

  /** A non-empty list of blank highlights leaves the strip empty, without the
      "No highlights yet." message. */
  lemma BlankHighlightsShowNothing(items: seq<Highlight>)
    requires |items| > 0
    requires forall i :: 0 <= i < |items| ==> HighlightText(items[i]) == ""
    ensures HighlightsStrip(Items(items)) == PillRow([])
  {
    PillsOfBlank(items);
  }

  /** Blank highlights give no pills. */
  lemma PillsOfBlank(items: seq<Highlight>)
    requires forall i :: 0 <= i < |items| ==> HighlightText(items[i]) == ""
    ensures Pills(items) == []
  {
    var ps := Pills(items);
    assert forall t :: multiset(ps)[t] == 0 by {
      forall t ensures multiset(ps)[t] == 0 {
        if t != "" {
          assert t !in HighlightTexts(items);
        }
      }
    }
    assert multiset(ps) == multiset{};
  }

  // ---------------------------------------------------------------- project cards

  /** The card's target: `p.link`, else the repository on GitHub, else `#`. */
  function CardLink(p: Project): (l: string)
    ensures l != ""
    ensures p.link != "" ==> l == p.link
    ensures p.link == "" && p.repo == "" ==> l == "#"
    ensures p.link == "" && p.repo != "" ==> l == ProjectPage.GITHUB + ProjectPage.Key(p)
  {
    if p.link != "" then p.link
    else if p.repo != "" then ProjectPage.GITHUB + OwnerOf(p) + "/" + p.repo
    else "#"
  }

  /** Without its own link, a card points where the detail page's repository link does. */
  lemma CardLinkMatchesDetailPage(p: Project, param: string)
    requires p.link == "" && p.repo != ""
    ensures CardLink(p) == ProjectPage.RepoUrl(ProjectPage.NormaliseRepoPair(param, p))
  {
  }

  /** The card heading: the title, else the repo. */
  function CardTitle(p: Project): (t: string)
    ensures t == "" <==> p.title == "" && p.repo == ""
    ensures p.title != "" ==> t == p.title
    ensures p.title == "" ==> t == p.repo
  {
    if p.title != "" then p.title else p.repo
  }

  /** The `repo` value carried by the card's Details link, whose `href` is
      `/project.html?repo=<owner>/<repo>`; `None` means the disabled button. */
  function DetailsQuery(p: Project): (q: Option<string>)
    ensures q.Some? <==> p.repo != ""
    ensures q.Some? ==> q.value == OwnerOf(p) + "/" + p.repo
  {
    var owner := OwnerOf(p);
    if owner != "" && p.repo != "" then Some(owner + "/" + p.repo) else None
  }

  /** A card's Details link opens the detail page on that same project when
      the list has unique keys. */
  lemma DetailsLinkResolves(projects: seq<Project>, k: nat)
    requires k < |projects|
    requires ProjectPage.UniqueKeys(projects)
    requires DetailsQuery(projects[k]).Some?
    requires Trim(ProjectPage.Key(projects[k])) == ProjectPage.Key(projects[k])
    ensures ProjectPage.Resolve(projects, ProjectPage.RepoParam(DetailsQuery(projects[k]))) == ProjectPage.Listed(k)
  {
    assert DetailsQuery(projects[k]).value == ProjectPage.Key(projects[k]);
    ProjectPage.KeyResolves(projects, k);
  }

  // ---------------------------------------------------------------- timeline

  /** An item's category, `other` when it has none. */
  function CategoryOf(it: TimelineItem): (c: string)
    ensures c != ""
    ensures it.category != "" ==> c == it.category
    ensures it.category == "" ==> c == "other"
  {
    if it.category != "" then it.category else "other"
  }

  /** The categories of the items, in item order. */
  function Categories(items: seq<TimelineItem>): (cs: seq<string>)
    ensures |cs| == |items|
    ensures forall i :: 0 <= i < |items| ==> cs[i] == CategoryOf(items[i])
  {
    seq(|items|, i requires 0 <= i < |items| => CategoryOf(items[i]))
  }

  /** The legend: each category once, in order of first appearance. */
  function Legend(items: seq<TimelineItem>): (cats: seq<string>)
    ensures Seqs.Distinct(cats)
    ensures forall c :: c in cats <==> exists i :: 0 <= i < |items| && CategoryOf(items[i]) == c
    ensures forall i :: 0 <= i < |cats| ==> cats[i] in Categories(items)
    ensures forall i, j :: 0 <= i < j < |cats| ==>
      Seqs.FirstIndex(Categories(items), cats[i]) < Seqs.FirstIndex(Categories(items), cats[j])
  {
    var cs := Categories(items);
    assert forall i :: 0 <= i < |items| ==> cs[i] == CategoryOf(items[i]);
    Seqs.Dedup(cs)
  }

  /** An icon and its colour class. */
  datatype Icon = Icon(glyph: string, colour: string)

  const OTHER_ICON: Icon := Icon("📌", "text-slate-500")

  const ICONS: map<string, Icon> := map[
    "project" := Icon("🛠️", "text-indigo-500"),
    "cert" := Icon("🏅", "text-emerald-500"),
    "course" := Icon("📘", "text-fuchsia-500"),
    "education" := Icon("🎓", "text-amber-500"),
    "other" := OTHER_ICON]

  /** The icon configured for a category, else the `other` icon. */
  function IconFor(cat: string): (ic: Icon)
    ensures cat in ICONS ==> ic == ICONS[cat]
    ensures cat !in ICONS ==> ic == OTHER_ICON
    ensures ic in ICONS.Values
  {
    assert ICONS["other"] == OTHER_ICON;
    if cat in ICONS then ICONS[cat] else OTHER_ICON
  }

  /** One rendered timeline row. */
  datatype Entry = Entry(when: string, title: string, summary: string, category: string, icon: Icon)

  /** The row for one item: the date, else the `when` text; the title, else
      the `text` field. */
  function EntryOf(it: TimelineItem): (e: Entry)
    ensures e.category == CategoryOf(it) && e.icon == IconFor(e.category)
    ensures e.when == "" <==> it.date == "" && it.when == ""
    ensures it.date != "" ==> e.when == it.date
    ensures it.date == "" ==> e.when == it.when
    ensures e.title == "" <==> it.title == "" && it.text == ""
    ensures it.title != "" ==> e.title == it.title
    ensures it.title == "" ==> e.title == it.text
    ensures e.summary == it.summary
  {
    var cat := CategoryOf(it);
    Entry(
      if it.date != "" then it.date else it.when,
      if it.title != "" then it.title else it.text,
      it.summary,
      cat,
      IconFor(cat))
  }

  /** The legend rows, each with its category's icon. */
  function LegendRows(items: seq<TimelineItem>): (rows: seq<(string, Icon)>)
    ensures |rows| == |Legend(items)|
    ensures forall i :: 0 <= i < |rows| ==> rows[i] == (Legend(items)[i], IconFor(Legend(items)[i]))
  {
    var cats := Legend(items);
    seq(|cats|, i requires 0 <= i < |cats| => (cats[i], IconFor(cats[i])))
  }

  /** Every timeline row's category and icon appear in the legend. */
  lemma EntriesInLegend(items: seq<TimelineItem>, i: nat)
    requires i < |items|
    ensures (EntryOf(items[i]).category, EntryOf(items[i]).icon) in LegendRows(items)
  {
    var cats := Legend(items);
    var c := CategoryOf(items[i]);
    assert c in cats;
    var k :| 0 <= k < |cats| && cats[k] == c;
    assert LegendRows(items)[k] == (c, IconFor(c));
  }

  // ---------------------------------------------------------------- active section

  /** The navigation anchors the observer is built from: the links whose
      `href` starts with `#`, in order. Each `href` is then looked up as a CSS
      selector; `isSelector` says which texts the browser accepts as one.
      The first lookup that throws stops the whole script, and then nothing
      is ever underlined: `None`. The bare `#` that a `nav` entry without an
      `href` receives is not a valid selector, so one such entry is enough. */
  function SectionLinks(hrefs: seq<string>, isSelector: string -> bool): (r: Option<seq<string>>)
    requires !isSelector("#")
    ensures r.None? <==> exists i :: 0 <= i < |hrefs| && StartsWith(hrefs[i], "#") && !isSelector(hrefs[i])
    ensures "#" in hrefs ==> r.None?
    ensures r.Some? ==> forall h :: multiset(r.value)[h] == if StartsWith(h, "#") then multiset(hrefs)[h] else 0
    ensures r.Some? ==> Seqs.IsSubseq(r.value, hrefs)
  {
    var anchors := Seqs.Filter(hrefs, (h: string) => StartsWith(h, "#"));
    if exists i :: 0 <= i < |hrefs| && StartsWith(hrefs[i], "#") && !isSelector(hrefs[i]) then None
    else Some(anchors)
  }

  /** `setActive(id)`: which links are underlined and marked `aria-current`. */
  function SetActive(hrefs: seq<string>, id: string): (on: seq<bool>)
    ensures |on| == |hrefs|
    ensures forall i :: 0 <= i < |hrefs| ==> (on[i] <==> hrefs[i] == "#" + id)
  {
    seq(|hrefs|, i requires 0 <= i < |hrefs| => hrefs[i] == "#" + id)
  }

  /** With distinct anchors, the section's own link is the only one marked. */
  lemma {:induction false} SetActiveSingle(hrefs: seq<string>, id: string)
    requires Seqs.Distinct(hrefs)
    requires "#" + id in hrefs
    ensures var k := Seqs.FirstIndex(hrefs, "#" + id);
      && SetActive(hrefs, id)[k]
      && forall i :: 0 <= i < |hrefs| && SetActive(hrefs, id)[i] ==> i == k
  {
    var k := Seqs.FirstIndex(hrefs, "#" + id);
    forall i | 0 <= i < |hrefs| && SetActive(hrefs, id)[i] ensures i == k {
      assert hrefs[i] == hrefs[k];
    }
  }
}

=== FILE: project_list.dfy ===
/** The projects page (`assets/projects.js`): search and tag filtering, the
    three sort modes, the count label and the tag chips. */
module ProjectList {
  import opened Wrappers
  import opened Strings
  import Seqs
  import Sorting
  import opened SiteData

  // ---------------------------------------------------------------- normalise

  /** The `normalise` helper: an absent value becomes the empty string, and
      every upper-case letter becomes its lower-case partner. */
  function Normalise(value: string): (r: string)
    ensures |r| == |value|
    ensures forall i :: 0 <= i < |r| && IsUpper(value[i]) ==> r[i] as int == value[i] as int + 32
    ensures forall i :: 0 <= i < |r| && !IsUpper(value[i]) ==> r[i] == value[i]
  {
    Lower(value)
  }

  /** Normalising is idempotent, so comparing normalised values is case-insensitive equality. */
  lemma NormaliseIdempotent(value: string)
    ensures Normalise(Normalise(value)) == Normalise(value)
    ensures Normalise("") == ""
  {
    LowerIdempotent(value);
  }

  // ---------------------------------------------------------------- filters

  /** `matchesSearch(project, q)`: the normalised title, blurb and joined tags,
      glued with spaces, must contain the normalised query. Equivalently the
      lower-cased query occurs in the lower-cased `title blurb tags`. */
  function MatchesSearch(p: Project, q: string): (b: bool)
    ensures q == "" ==> b
    ensures b <==> q == "" || Contains(Lower(p.title + " " + p.blurb + " " + Join(p.tags, " ")), Lower(q))
  {
    var a, bl, c := p.title, p.blurb, Join(p.tags, " ");
    var parts := [Normalise(a), Normalise(bl), Normalise(c)];
    assert parts[1..] == [Normalise(bl), Normalise(c)];
    assert parts[1..][1..] == [Normalise(c)];
    assert Join(parts[1..], " ") == Lower(bl) + " " + Lower(c);
    assert Join(parts, " ") == Lower(a) + " " + (Lower(bl) + " " + Lower(c));
    LowerConcat(a + " " + bl + " ", c);
    LowerConcat(a + " " + bl, " ");
    LowerConcat(a + " ", bl);
    LowerConcat(a, " ");
    assert Lower(" ") == " ";
    assert Lower(a + " " + bl + " " + c) == Lower(a) + " " + Lower(bl) + " " + Lower(c);
    assert Lower(a) + " " + (Lower(bl) + " " + Lower(c)) == Lower(a) + " " + Lower(bl) + " " + Lower(c);
    q == "" || Contains(Join(parts, " "), Normalise(q))
  }

  /** A query found in the title keeps the project, whatever its case. */
  lemma TitleHitMatches(p: Project, q: string)
    requires Contains(Lower(p.title), Lower(q))
    ensures MatchesSearch(p, q)
  {
    if q != "" {
      var rest := " " + p.blurb + " " + Join(p.tags, " ");
      assert p.title + " " + p.blurb + " " + Join(p.tags, " ") == p.title + rest;
      LowerConcat(p.title, rest);
      ContainsIffOccurs(Lower(p.title), Lower(q));
      var i :| OccursAt(Lower(p.title), Lower(q), i);
      assert (Lower(p.title) + Lower(rest))[i..i + |Lower(q)|] == Lower(p.title)[i..i + |Lower(q)|];
      assert OccursAt(Lower(p.title) + Lower(rest), Lower(q), i);
      ContainsIffOccurs(Lower(p.title) + Lower(rest), Lower(q));
    }
  }

  /** `matchesTag(project, tag)`, with `None` for the "All" selection: no tag,
      or an empty one, keeps every project; otherwise one of the project's
      tags must equal the selected tag up to case. */
  function MatchesTag(p: Project, tag: Option<string>): (b: bool)
    ensures b <==>
      tag.None? || tag.value == "" || exists i :: 0 <= i < |p.tags| && SameIgnoringCase(p.tags[i], tag.value)
  {
    match tag
    case None => true
    case Some(t) =>
      var lowered := seq(|p.tags|, i requires 0 <= i < |p.tags| => Normalise(p.tags[i]));
      assert forall i :: 0 <= i < |p.tags| ==> (lowered[i] == Normalise(t) <==> SameIgnoringCase(p.tags[i], t)) by {
        forall i | 0 <= i < |p.tags| {
          LowerEqIff(p.tags[i], t);
        }
      }
      t == "" || Normalise(t) in lowered
  }

  // ---------------------------------------------------------------- sorting

  datatype SortMode = Featured | Alpha | Recent

  /** `state.sort`: the select's value, with anything but "alpha" and "recent" meaning featured-first. */
  function ModeOf(value: string): (m: SortMode)
    ensures m == Alpha <==> value == "alpha"
    ensures m == Recent <==> value == "recent"
  {
    if value == "alpha" then Alpha else if value == "recent" then Recent else Featured
  }

  /** `normalise(a.title).localeCompare(normalise(b.title)) <= 0`. */
  predicate TitleLeq(a: Project, b: Project) {
    StrLeq(Normalise(a.title), Normalise(b.title))
  }

  /** Newest first, a missing date counting as time zero. */
  predicate RecentLeq(a: Project, b: Project) {
    a.updated >= b.updated
  }

  /** Featured projects first, then by title. */
  predicate FeaturedLeq(a: Project, b: Project) {
    if a.featured != b.featured then a.featured else TitleLeq(a, b)
  }

  function Comparator(mode: SortMode): (Project, Project) -> bool {
    match mode
    case Alpha => TitleLeq
    case Recent => RecentLeq
    case Featured => FeaturedLeq
  }

  lemma TitleLeqTotalPreorder()
    ensures Sorting.TotalPreorder(TitleLeq)
  {
    forall a: Project, b: Project ensures TitleLeq(a, b) || TitleLeq(b, a) {
      StrLeqTotal(Normalise(a.title), Normalise(b.title));
    }
    forall a: Project, b: Project, c: Project | TitleLeq(a, b) && TitleLeq(b, c) ensures TitleLeq(a, c) {
      StrLeqTransitive(Normalise(a.title), Normalise(b.title), Normalise(c.title));
    }
  }

  lemma ComparatorTotalPreorder(mode: SortMode)
    ensures Sorting.TotalPreorder(Comparator(mode))
  {
    TitleLeqTotalPreorder();
  }

  /** `r` is in the order of sort mode `mode`: by lower-cased title for
      `alpha`, newest first for `recent`, and featured projects first, each
      group by lower-cased title, for `featured`. */
  ghost predicate InModeOrder(r: seq<Project>, mode: SortMode) {
    && (mode == Alpha ==>
      forall i, j :: 0 <= i < j < |r| ==> StrLeq(Normalise(r[i].title), Normalise(r[j].title)))
    && (mode == Recent ==>
      forall i, j :: 0 <= i < j < |r| ==> r[i].updated >= r[j].updated)
    && (mode == Featured ==>
      forall i, j :: 0 <= i < j < |r| ==> r[i].featured || !r[j].featured)
    && (mode == Featured ==>
      forall i, j :: 0 <= i < j < |r| && r[i].featured == r[j].featured ==>
        StrLeq(Normalise(r[i].title), Normalise(r[j].title)))
  }

  /** `sortProjects(list, mode)`: a sorted copy; the input list is a value and is not changed. */
  function SortProjects(list: seq<Project>, mode: SortMode): (r: seq<Project>)
    ensures multiset(r) == multiset(list)
    ensures InModeOrder(r, mode)
  {
    var r := Sorting.Sort(list, Comparator(mode));
    ComparatorTotalPreorder(mode);
    Sorting.SortSorted(list, Comparator(mode));
    r
  }

  // ---------------------------------------------------------------- rendering

  /** The page state: search text, selected tag (`None` is "All"), sort select value, loaded projects. */
  datatype ListState = ListState(q: string, tag: Option<string>, sort: string, data: seq<Project>)

  /** The filter `renderProjects` applies: the search and the tag filter both
      keep the project. */
  function Passes(st: ListState, p: Project): (b: bool)
    ensures b <==>
      && (st.q == "" || Contains(Lower(p.title + " " + p.blurb + " " + Join(p.tags, " ")), Lower(st.q)))
      && (st.tag.None? || st.tag.value == "" || exists i :: 0 <= i < |p.tags| && SameIgnoringCase(p.tags[i], st.tag.value))
  {
    MatchesSearch(p, st.q) && MatchesTag(p, st.tag)
  }

  /** The count label, the number followed by "project" or "projects": its first word
      reads back as the count, and the noun is plural exactly when the count
      is not one. */
  function CountLabel(n: nat): (text: string)
    ensures Split(text, ' ')[0] == NatToString(n)
    ensures DigitsValue(Split(text, ' ')[0]) == n
    ensures StartsWith(text, NatToString(n) + " project")
    ensures |text| == |NatToString(n)| + 8 + (if n == 1 then 0 else 1)
    ensures text[|text| - 1] == 's' <==> n != 1
  {
    var digits := NatToString(n);
    var shown := digits + " project" + (if n == 1 then "" else "s");
    assert ' ' !in digits by {
      forall i | 0 <= i < |digits| ensures digits[i] != ' ' {
        assert IsDigit(digits[i]);
      }
    }
    assert shown[|digits|] == ' ';
    assert shown[..|digits|] == digits;
    assert IndexOf(shown, ' ') == |digits|;
    NatToStringRoundTrip(n);
    shown
  }

  /** The loaded projects that pass the filters, in load order. */
  function Passing(st: ListState): (r: seq<Project>)
    ensures forall p :: multiset(r)[p] == if Passes(st, p) then multiset(st.data)[p] else 0
    ensures forall i :: 0 <= i < |r| ==> Passes(st, r[i])
  {
    Seqs.Filter(st.data, p => Passes(st, p))
  }

  /** What `renderProjects` shows: the filtered, sorted cards and the count label. */
  datatype ListView = ListView(items: seq<Project>, count: string)

  function RenderProjects(st: ListState): (v: ListView)
    ensures forall p :: multiset(v.items)[p] == if Passes(st, p) then multiset(st.data)[p] else 0
    ensures forall i :: 0 <= i < |v.items| ==> Passes(st, v.items[i])
    ensures InModeOrder(v.items, ModeOf(st.sort))
    ensures v.count == CountLabel(|v.items|)
  {
    var passing := Passing(st);
    var items := SortProjects(passing, ModeOf(st.sort));
    assert forall i :: 0 <= i < |items| ==> multiset(passing)[items[i]] > 0 by {
      forall i | 0 <= i < |items| ensures multiset(passing)[items[i]] > 0 {
        assert items[i] in multiset(items);
      }
    }
    ListView(items, CountLabel(|items|))
  }

  // ---------------------------------------------------------------- tag chips

  /** Some project carries tag `t`. */
  ghost predicate IsTagOf(all: seq<Project>, t: string) {
    exists k :: 0 <= k < |all| && t in all[k].tags
  }

  /** Every project's tags, project by project, in order. */
  function AllTags(ps: seq<Project>): (r: seq<string>)
    ensures forall t :: t in r <==> IsTagOf(ps, t)
  {
    if |ps| == 0 then []
    else
      var rest := AllTags(ps[1..]);
      assert forall t :: IsTagOf(ps, t) <==> t in ps[0].tags || IsTagOf(ps[1..], t) by {
        forall t ensures IsTagOf(ps, t) <==> t in ps[0].tags || IsTagOf(ps[1..], t) {
          if IsTagOf(ps, t) && t !in ps[0].tags {
            var k :| 0 <= k < |ps| && t in ps[k].tags;
            assert t in ps[1..][k - 1].tags;
          }
          if IsTagOf(ps[1..], t) {
            var k :| 0 <= k < |ps[1..]| && t in ps[1..][k].tags;
            assert t in ps[k + 1].tags;
          }
        }
      }
      ps[0].tags + rest
  }

  /** No value twice, and in collation order. */
  ghost predicate StrictlyOrdered(s: seq<string>) {
    forall i, j :: 0 <= i < j < |s| ==> s[i] != s[j] && StrLeq(s[i], s[j])
  }

  /** The tag set turned into a list and sorted with `localeCompare`: each tag
      once, in collation order. */
  function DistinctTags(all: seq<Project>): (tags: seq<string>)
    ensures forall t :: t in tags <==> IsTagOf(all, t)
    ensures StrictlyOrdered(tags)
  {
    var distinct := Seqs.Dedup(AllTags(all));
    var tags := Sorting.Sort(distinct, StrLeq);
    assert Sorting.TotalPreorder(StrLeq) by {
      forall a: string, b: string ensures StrLeq(a, b) || StrLeq(b, a) {
        StrLeqTotal(a, b);
      }
      forall a: string, b: string, c: string | StrLeq(a, b) && StrLeq(b, c) ensures StrLeq(a, c) {
        StrLeqTransitive(a, b, c);
      }
    }
    Sorting.SortSorted(distinct, StrLeq);
    Seqs.DistinctPermutation(distinct, tags);
    forall t ensures t in tags <==> t in distinct {
      assert t in tags <==> t in multiset(tags);
      assert t in distinct <==> t in multiset(distinct);
    }
    tags
  }

  /** A filter chip: its label, the tag it selects (`None` for "All"), and whether it is highlighted. */
  datatype Chip = Chip(text: string, value: Option<string>, active: bool)

  /** `makeChip(label, tagValue)`: the "All" chip (no value) is highlighted
      when no tag is selected, and a tag's chip when that tag is selected. */
  function MakeChip(text: string, value: Option<string>, selected: Option<string>): (c: Chip)
    ensures c.text == text && c.value == value
    ensures value.None? ==> (c.active <==> selected.None?)
    ensures value.Some? ==> (c.active <==> selected == Some(value.value))
  {
    Chip(text, value, value == selected)
  }

  /** Some chip after "All" selects tag `t`. */
  ghost predicate HasChip(chips: seq<Chip>, t: string) {
    exists i :: 1 <= i < |chips| && chips[i].text == t
  }

  /** The labels of a run of chips. */
  function Texts(chips: seq<Chip>): (r: seq<string>)
    ensures |r| == |chips|
    ensures forall i :: 0 <= i < |chips| ==> r[i] == chips[i].text
  {
    seq(|chips|, i requires 0 <= i < |chips| => chips[i].text)
  }

  /** The chips for an already ordered list of distinct tags. */
  function ChipsFor(tags: seq<string>, selected: Option<string>): (chips: seq<Chip>)
    ensures |chips| == |tags| + 1
    ensures chips[0] == MakeChip("All", None, selected)
    ensures forall i :: 1 <= i < |chips| ==> chips[i] == MakeChip(tags[i - 1], Some(tags[i - 1]), selected)
  {
    var tail := seq(|tags|, i requires 0 <= i < |tags| => MakeChip(tags[i], Some(tags[i]), selected));
    var chips := [MakeChip("All", None, selected)] + tail;
    assert forall i :: 1 <= i < |chips| ==> chips[i] == tail[i - 1];
    chips
  }

  /** Distinct tags give chips with distinct values, hence at most one active chip. */
  lemma ChipsForDistinct(tags: seq<string>, selected: Option<string>)
    requires Seqs.Distinct(tags)
    ensures forall i, j :: 0 <= i < j < |ChipsFor(tags, selected)| ==>
      ChipsFor(tags, selected)[i].value != ChipsFor(tags, selected)[j].value
  {
    var chips := ChipsFor(tags, selected);
    forall i, j | 0 <= i < j < |chips| ensures chips[i].value != chips[j].value {
      if i > 0 {
        assert tags[i - 1] != tags[j - 1];
      }
    }
  }

  /** A chip after "All" exists for exactly the listed tags. */
  lemma ChipsForHas(tags: seq<string>, selected: Option<string>, t: string)
    ensures HasChip(ChipsFor(tags, selected), t) <==> t in tags
  {
    var chips := ChipsFor(tags, selected);
    if t in tags {
      var k :| 0 <= k < |tags| && tags[k] == t;
      assert chips[k + 1].text == t;
    }
  }

  /** `renderTags(allProjects)`: the "All" chip, then one chip per distinct tag
      in collation order; a chip is active when its value is the selected tag. */
  function TagChips(all: seq<Project>, selected: Option<string>): (chips: seq<Chip>)
    ensures |chips| >= 1 && chips[0] == Chip("All", None, selected.None?)
    ensures forall i :: 1 <= i < |chips| ==> chips[i].value == Some(chips[i].text)
    ensures forall i :: 0 <= i < |chips| ==> (chips[i].active <==> chips[i].value == selected)
    ensures forall t :: HasChip(chips, t) <==> IsTagOf(all, t)
    ensures StrictlyOrdered(Texts(chips[1..]))
    ensures forall i, j :: 0 <= i < j < |chips| ==> !(chips[i].active && chips[j].active)
  {
    var tags := DistinctTags(all);
    var chips := ChipsFor(tags, selected);
    assert Texts(chips[1..]) == tags;
    forall t ensures HasChip(chips, t) <==> t in tags {
      ChipsForHas(tags, selected, t);
    }
    ChipsForDistinct(tags, selected);
    chips
  }

  /** With no search text, selecting any chip's tag leaves at least one project on the page. */
  lemma ChipNeverEmpties(data: seq<Project>, selected: Option<string>, i: nat, sort: string)
    requires |data| > 0
    requires i < |TagChips(data, selected)|
    ensures |RenderProjects(ListState("", TagChips(data, selected)[i].value, sort, data)).items| > 0
  {
    var chips := TagChips(data, selected);
    var chip := chips[i];
    var st := ListState("", chip.value, sort, data);
    var kept := data[0];
    if i != 0 {
      assert HasChip(chips, chip.text);
      assert IsTagOf(data, chip.text);
      var k :| 0 <= k < |data| && chip.text in data[k].tags;
      kept := data[k];
      var m :| 0 <= m < |kept.tags| && kept.tags[m] == chip.text;
      assert SameIgnoringCase(kept.tags[m], chip.text);
    }
    assert Passes(st, kept);
    assert kept in multiset(data);
    var v := RenderProjects(st);
    assert multiset(v.items)[kept] > 0;
  }
}

=== FILE: project_page.dfy ===
/** The project detail page, `assets/project.js`: reading `?repo=`, finding
    the listed project it names (or inventing a stand-in), and deriving the
    repository link, demo link, case-study path and previous/next links. */
module ProjectPage {
  import opened Wrappers
  import opened Strings
  import opened SiteData
  import Seqs

  const GITHUB: string := "https://github.com/"
  const CASE_STUDIES: string := "/case-studies/"
  const TITLE_SUFFIX: string := " — Gregory John Carberry"
  const LOAD_FAILED: string := "projects.json could not be loaded."
  const NO_MATCH: string := "No project matches this URL."

  // ---------------------------------------------------------------- the query

  /** `getRepoParam()`: the decoded `repo` query value, trimmed; `query` is
      `None` when the parameter is absent. */
  function RepoParam(query: Option<string>): (r: string)
    ensures query.None? ==> r == ""
    ensures query.Some? ==> exists i :: IsTrimOf(query.value, r, i)
    ensures r == "" || (!IsWhitespace(r[0]) && !IsWhitespace(r[|r| - 1]))
  {
    Trim(query.GetOr(""))
  }

  /** The `owner/repo` text a project is known by. */
  function Key(p: Project): string {
    OwnerOf(p) + "/" + p.repo
  }

  // ---------------------------------------------------------------- owner / repo

  datatype RepoPair = RepoPair(owner: string, repo: string)

  /** The text of `s` before its first `c`, or all of `s`. */
  function Before(s: string, c: char): (r: string)
    ensures c !in r
    ensures StartsWith(s, r)
    ensures c !in s ==> r == s
    ensures c in s ==> |r| < |s| && s[|r|] == c
  {
    if c in s then s[..IndexOf(s, c)] else s
  }

  /** `normaliseRepoPair(rawParam, project)`: the project's own owner and
      repo, except that a project without a repo takes it (and possibly the
      owner) from the query. */
  function NormaliseRepoPair(rawParam: string, p: Project): (r: RepoPair)
    ensures r.owner != ""
    ensures p.repo != "" || rawParam == "" ==> r == RepoPair(OwnerOf(p), p.repo)
    ensures p.repo == "" && rawParam != "" && '/' !in rawParam ==> r == RepoPair(OwnerOf(p), rawParam)
    ensures p.repo == "" && '/' in rawParam ==>
      var k := IndexOf(rawParam, '/');
      && r.owner == (if k == 0 then OwnerOf(p) else rawParam[..k])
      && r.repo == Before(rawParam[k + 1..], '/')
  {
    var owner := OwnerOf(p);
    if p.repo == "" && rawParam != "" then
      if '/' in rawParam then
        var parts := Split(rawParam, '/');
        assert parts[1..] == Split(rawParam[IndexOf(rawParam, '/') + 1..], '/');
        RepoPair(if parts[0] != "" then parts[0] else owner, if parts[1] != "" then parts[1] else p.repo)
      else RepoPair(owner, rawParam)
    else RepoPair(owner, p.repo)
  }

  /** A repo-less entry reached by `owner/repo` gets exactly that owner and repo back. */
  lemma RepoPairRoundTrip(owner: string, repo: string, p: Project)
    requires p.repo == ""
    requires owner != "" && '/' !in owner && '/' !in repo
    ensures NormaliseRepoPair(owner + "/" + repo, p) == RepoPair(owner, repo)
  {
    var raw := owner + "/" + repo;
    assert raw == Join([owner, repo], "/");
    assert Join([owner, repo][1..], "/") == repo;
    SplitJoin([owner, repo], '/');
    assert raw[|owner|] == '/';
  }

  // ---------------------------------------------------------------- the lookup

  /** The exact test of the lookup loop: a non-empty query equal to the
      entry's lower-cased `owner/repo` once lower-cased itself. */
  function ExactMatch(p: Project, param: string): (b: bool)
    ensures b <==> param != "" && SameIgnoringCase(Key(p), param)
  {
    LowerEqIff(Key(p), param);
    param != "" && Lower(Key(p)) == Lower(param)
  }

  /** The fallback test of the lookup loop: the entry has a repo equal to the
      query once both are lower-cased. */
  function RepoMatch(p: Project, param: string): (b: bool)
    ensures b <==> p.repo != "" && SameIgnoringCase(p.repo, param)
  {
    LowerEqIff(p.repo, param);
    p.repo != "" && Lower(p.repo) == Lower(param)
  }

  /** No entry matches `param` either way. */
  ghost predicate NoMatch(projects: seq<Project>, param: string) {
    forall i :: 0 <= i < |projects| ==> !ExactMatch(projects[i], param) && !RepoMatch(projects[i], param)
  }

  /** The project the page shows: the first whose `owner/repo` equals the
      query ignoring case, or failing that the first whose repo alone does. */
  function Lookup(projects: seq<Project>, param: string): (r: Option<nat>)
    ensures r.Some? ==> r.value < |projects|
    ensures param == "" ==> r.None?
    ensures (exists e :: 0 <= e < |projects| && ExactMatch(projects[e], param)) ==>
      && r.Some? && ExactMatch(projects[r.value], param)
      && forall j :: 0 <= j < r.value ==> !ExactMatch(projects[j], param)
    ensures (forall e :: 0 <= e < |projects| ==> !ExactMatch(projects[e], param)) ==>
      && (r.None? <==> forall j :: 0 <= j < |projects| ==> !RepoMatch(projects[j], param))
      && (r.Some? ==> RepoMatch(projects[r.value], param)
                      && forall j :: 0 <= j < r.value ==> !RepoMatch(projects[j], param))
  {
    var exact := Seqs.FirstWhere(projects, p => ExactMatch(p, param));
    if exact.Some? then exact
    else
      var r := Seqs.FirstWhere(projects, p => RepoMatch(p, param));
      assert r.Some? ==> |projects[r.value].repo| == |Lower(param)|;
      r
  }

  /** An exact match with none before it is the one looked up. */
  lemma LookupExactAt(projects: seq<Project>, param: string, i: nat)
    requires i < |projects| && ExactMatch(projects[i], param)
    requires forall j :: 0 <= j < i ==> !ExactMatch(projects[j], param)
    ensures Lookup(projects, param) == Some(i)
  {
    var r := Lookup(projects, param);
    assert r.Some?;
    assert !(r.value < i) && !(i < r.value);
  }

  /** Without exact matches, the first repo match is the one looked up. */
  lemma LookupRepoOnly(projects: seq<Project>, param: string, found: Option<nat>)
    requires forall j :: 0 <= j < |projects| ==> !ExactMatch(projects[j], param)
    requires found.None? ==> forall j :: 0 <= j < |projects| ==> !RepoMatch(projects[j], param)
    requires found.Some? ==> found.value < |projects| && RepoMatch(projects[found.value], param)
    requires found.Some? ==> forall j :: 0 <= j < found.value ==> !RepoMatch(projects[j], param)
    ensures Lookup(projects, param) == found
  {
    var r := Lookup(projects, param);
    if found.Some? {
      assert r.Some?;
      assert !(r.value < found.value) && !(found.value < r.value);
    }
  }

  /** The `for (const p of projects)` loop: stop at an exact match, otherwise
      remember the first repo-only match. */
  method FindCurrent(projects: seq<Project>, param: string) returns (found: Option<nat>)
    ensures found == Lookup(projects, param)
  {
    found := None;
    var i := 0;
    while i < |projects|
      invariant 0 <= i <= |projects|
      invariant forall j :: 0 <= j < i ==> !ExactMatch(projects[j], param)
      invariant found.None? ==> forall j :: 0 <= j < i ==> !RepoMatch(projects[j], param)
      invariant found.Some? ==> found.value < i && RepoMatch(projects[found.value], param)
      invariant found.Some? ==> forall j :: 0 <= j < found.value ==> !RepoMatch(projects[j], param)
    {
      var p := projects[i];
      if ExactMatch(p, param) {
        found := Some(i);
        LookupExactAt(projects, param, i);
        return;
      }
      if found.None? && RepoMatch(p, param) {
        found := Some(i);
      }
      i := i + 1;
    }
    LookupRepoOnly(projects, param, found);
  }

  /** What the page settles on before rendering. */
  datatype Resolution =
    | NoProjects              // the list failed to load or is empty
    | NotFound                // no `?repo=` at all
    | Listed(index: nat)      // a listed project
    | Synthetic(project: Project)  // the stand-in for an unlisted repo

  /** The stand-in built for an unlisted `?repo=` value: titled and named
      after it, owned by the default owner, and with nothing else. */
  function SyntheticProject(param: string): (p: Project)
    ensures p.title == param && p.repo == param
    ensures OwnerOf(p) == DEFAULT_OWNER
    ensures p.blurb == "" && p.tags == [] && p.caseStudy == ""
    ensures p.demo == "" && p.liveDemo == "" && p.url == "" && p.link == ""
  {
    Project(param, "", [], false, 0, DEFAULT_OWNER, param, "", "", "", "", "", "")
  }

  /** The decisions of `initProjectPage` up to the rendering. */
  function Resolve(projects: seq<Project>, param: string): (r: Resolution)
    ensures r.NoProjects? <==> |projects| == 0
    ensures r.NotFound? <==> |projects| > 0 && param == ""
    ensures r.Listed? ==>
      (r.index < |projects| && (ExactMatch(projects[r.index], param) || RepoMatch(projects[r.index], param)))
    ensures |projects| > 0 ==> (r.Listed? <==> Lookup(projects, param).Some?)
    ensures r.Listed? ==> Lookup(projects, param) == Some(r.index)
    ensures r.Synthetic? <==> (|projects| > 0 && param != "" && NoMatch(projects, param))
    ensures r.Synthetic? ==>
      (r.project.title == param && r.project.repo == param && OwnerOf(r.project) == DEFAULT_OWNER)
    ensures r.Synthetic? ==> r.project == SyntheticProject(param)
  {
    if |projects| == 0 then NoProjects
    else
      match Lookup(projects, param)
      case Some(i) => Listed(i)
      case None => if param != "" then Synthetic(SyntheticProject(param)) else NotFound
  }

  /** Projects no two of which share an `owner/repo` ignoring case. */
  ghost predicate UniqueKeys(projects: seq<Project>) {
    forall i, j :: 0 <= i < j < |projects| ==> Lower(Key(projects[i])) != Lower(Key(projects[j]))
  }

  /** Asking for a listed project by its `owner/repo` finds it, or an earlier
      entry with the same key; with unique keys, exactly it. */
  lemma {:induction false} KeyResolves(projects: seq<Project>, k: nat)
    requires k < |projects|
    requires Trim(Key(projects[k])) == Key(projects[k])
    ensures var r := Resolve(projects, RepoParam(Some(Key(projects[k]))));
      && r.Listed? && r.index <= k
      && Lower(Key(projects[r.index])) == Lower(Key(projects[k]))
      && (UniqueKeys(projects) ==> r.index == k)
  {
    var param := Key(projects[k]);
    assert RepoParam(Some(param)) == param;
    assert ExactMatch(projects[k], param);
    var r := Lookup(projects, param);
    assert r.Some? && r.value <= k;
  }

  // ---------------------------------------------------------------- rendering

  /** The heading: the title, else the repo, else the word "Project". */
  function Heading(p: Project, repo: string): (h: string)
    ensures h != ""
    ensures p.title != "" ==> h == p.title
    ensures p.title == "" && repo != "" ==> h == repo
    ensures p.title == "" && repo == "" ==> h == "Project"
  {
    if p.title != "" then p.title else if repo != "" then repo else "Project"
  }

  /** The repository link, empty when owner or repo is missing. */
  function RepoUrl(pair: RepoPair): (u: string)
    ensures u == "" <==> pair.owner == "" || pair.repo == ""
    ensures u != "" ==> StartsWith(u, GITHUB)
  {
    if pair.owner != "" && pair.repo != "" then GITHUB + pair.owner + "/" + pair.repo else ""
  }

  /** The owner and repo can be read back from the repository link. */
  lemma RepoUrlParts(pair: RepoPair)
    requires pair.owner != "" && pair.repo != ""
    requires '/' !in pair.owner && '/' !in pair.repo
    ensures Split(RepoUrl(pair)[|GITHUB|..], '/') == [pair.owner, pair.repo]
  {
    var u := RepoUrl(pair);
    assert u[|GITHUB|..] == Join([pair.owner, pair.repo], "/");
    assert Join([pair.owner, pair.repo][1..], "/") == pair.repo;
    SplitJoin([pair.owner, pair.repo], '/');
  }

  /** The demo link: the first non-empty field of `demo`, `liveDemo` and
      `url`, or nothing. */
  function DemoLink(p: Project): (d: string)
    ensures d == "" <==> p.demo == "" && p.liveDemo == "" && p.url == ""
    ensures d == p.demo || d == p.liveDemo || d == p.url
    ensures p.demo != "" ==> d == p.demo
    ensures p.demo == "" && p.liveDemo != "" ==> d == p.liveDemo
  {
    if p.demo != "" then p.demo else if p.liveDemo != "" then p.liveDemo else p.url
  }

  /** Where the case study is fetched from: the trimmed `caseStudy` field, or
      `<repo>.md`, under `/case-studies/`; nothing when there is no repo. */
  function CaseStudyPath(p: Project, repo: string): (path: Option<string>)
    ensures path.Some? <==> repo != ""
    ensures path.Some? ==> StartsWith(path.value, CASE_STUDIES)
    ensures path.Some? && Trim(p.caseStudy) == "" ==> path.value[|CASE_STUDIES|..] == repo + ".md"
    ensures path.Some? && Trim(p.caseStudy) != "" ==>
      path.value[|CASE_STUDIES|..] == Trim(p.caseStudy)
      && exists i :: IsTrimOf(p.caseStudy, path.value[|CASE_STUDIES|..], i)
  {
    if repo == "" then None
    else
      var name := Trim(p.caseStudy);
      var file := if name != "" then name else repo + ".md";
      assert (CASE_STUDIES + file)[|CASE_STUDIES|..] == file;
      Some(CASE_STUDIES + file)
  }

  /** A previous/next link: `repoQuery` is the `repo` value its URL carries
      (percent-encoded in the `href`, decoded again by the page it opens). */
  datatype NavLink = NavLink(repoQuery: string, text: string)

  /** The link to `projects[i]`, when it has a repo. */
  function NeighbourLink(q: Project, text: string): Option<NavLink> {
    if q.repo != "" then Some(NavLink(Key(q), text)) else None
  }

  /** The "← previous" link. */
  function PrevLink(projects: seq<Project>, r: Resolution): (l: Option<NavLink>)
    ensures l.Some? <==>
      (|projects| > 1 && r.Listed? && 0 < r.index < |projects| && projects[r.index - 1].repo != "")
    ensures l.Some? ==> l.value.repoQuery == Key(projects[r.index - 1])
  {
    if |projects| > 1 && r.Listed? && 0 < r.index < |projects| then
      var q := projects[r.index - 1];
      NeighbourLink(q, "← " + (if q.title != "" then q.title else q.repo))
    else None
  }

  /** The "next →" link. */
  function NextLink(projects: seq<Project>, r: Resolution): (l: Option<NavLink>)
    ensures l.Some? <==>
      (|projects| > 1 && r.Listed? && r.index + 1 < |projects| && projects[r.index + 1].repo != "")
    ensures l.Some? ==> l.value.repoQuery == Key(projects[r.index + 1])
  {
    if |projects| > 1 && r.Listed? && r.index + 1 < |projects| then
      var q := projects[r.index + 1];
      NeighbourLink(q, (if q.title != "" then q.title else q.repo) + " →")
    else None
  }

  /** Following the "previous" link of a list with unique keys lands on the
      entry before. */
  lemma PrevRoundTrip(projects: seq<Project>, r: Resolution)
    requires UniqueKeys(projects)
    requires forall i :: 0 <= i < |projects| ==> Trim(Key(projects[i])) == Key(projects[i])
    requires PrevLink(projects, r).Some?
    ensures Resolve(projects, RepoParam(Some(PrevLink(projects, r).value.repoQuery))) == Listed(r.index - 1)
    ensures var q := RepoParam(Some(PrevLink(projects, r).value.repoQuery));
      RenderPage(projects, q) == Show(projects, q, Listed(r.index - 1), projects[r.index - 1])
  {
    var k := r.index - 1;
    assert PrevLink(projects, r).value.repoQuery == Key(projects[k]);
    KeyShowsProject(projects, k);
  }

  /** Following the "next" link of a list with unique keys lands on the
      entry after. */
  lemma NextRoundTrip(projects: seq<Project>, r: Resolution)
    requires UniqueKeys(projects)
    requires forall i :: 0 <= i < |projects| ==> Trim(Key(projects[i])) == Key(projects[i])
    requires NextLink(projects, r).Some?
    ensures Resolve(projects, RepoParam(Some(NextLink(projects, r).value.repoQuery))) == Listed(r.index + 1)
    ensures var q := RepoParam(Some(NextLink(projects, r).value.repoQuery));
      RenderPage(projects, q) == Show(projects, q, Listed(r.index + 1), projects[r.index + 1])
  {
    var k := r.index + 1;
    assert NextLink(projects, r).value.repoQuery == Key(projects[k]);
    KeyShowsProject(projects, k);
  }

  datatype ProjectView = ProjectView(
    pageTitle: string,
    heading: string,
    blurb: string,
    tags: seq<string>,
    repoUrl: string,
    demo: string,
    prev: Option<NavLink>,
    next: Option<NavLink>,
    caseStudy: Option<string>)

  datatype Page = Missing(message: string) | Found(view: ProjectView)

  /** The page `initProjectPage` renders for a project list and a query value. */
  function RenderPage(projects: seq<Project>, param: string): (pg: Page)
    ensures pg.Missing? <==> |projects| == 0 || param == ""
    ensures pg.Missing? ==> pg.message == (if |projects| == 0 then LOAD_FAILED else NO_MATCH)
    ensures pg.Found? ==> pg.view.heading != "" && pg.view.pageTitle == pg.view.heading + TITLE_SUFFIX
    ensures pg.Found? ==> (pg.view.repoUrl != "" <==> pg.view.caseStudy.Some?)
    ensures pg.Found? && Resolve(projects, param).Synthetic? ==> pg.view.prev.None? && pg.view.next.None?
    ensures Resolve(projects, param).Listed? ==>
      pg == Show(projects, param, Resolve(projects, param), projects[Resolve(projects, param).index])
    ensures Resolve(projects, param).Synthetic? ==>
      pg == Show(projects, param, Resolve(projects, param), SyntheticProject(param))
  {
    var res := Resolve(projects, param);
    match res
    case NoProjects => Missing(LOAD_FAILED)
    case NotFound => Missing(NO_MATCH)
    case Listed(i) => Show(projects, param, res, projects[i])
    case Synthetic(stand) => Show(projects, param, res, stand)
  }

  /** The rendering of a found project `current`. */
  function Show(projects: seq<Project>, param: string, res: Resolution, current: Project): (pg: Page)
    ensures pg.Found?
    ensures pg.view.heading != "" && pg.view.pageTitle == pg.view.heading + TITLE_SUFFIX
    ensures pg.view.repoUrl != "" <==> pg.view.caseStudy.Some?
    ensures var pair := NormaliseRepoPair(param, current);
      && pg.view.heading == Heading(current, pair.repo)
      && pg.view.blurb == current.blurb
      && pg.view.tags == current.tags
      && pg.view.repoUrl == RepoUrl(pair)
      && pg.view.demo == DemoLink(current)
      && pg.view.caseStudy == CaseStudyPath(current, pair.repo)
    ensures pg.view.prev == PrevLink(projects, res) && pg.view.next == NextLink(projects, res)
  {
    var pair := NormaliseRepoPair(param, current);
    var heading := Heading(current, pair.repo);
    Found(ProjectView(
      heading + TITLE_SUFFIX,
      heading,
      current.blurb,
      current.tags,
      RepoUrl(pair),
      DemoLink(current),
      PrevLink(projects, res),
      NextLink(projects, res),
      CaseStudyPath(current, pair.repo)))
  }

  /** Opening the page with a listed project's own `owner/repo`, in a list
      with unique keys, renders that project with its neighbours' links. */
  lemma KeyShowsProject(projects: seq<Project>, k: nat)
    requires UniqueKeys(projects)
    requires k < |projects|
    requires Trim(Key(projects[k])) == Key(projects[k])
    ensures var q := RepoParam(Some(Key(projects[k])));
      && Resolve(projects, q) == Listed(k)
      && RenderPage(projects, q) == Show(projects, q, Listed(k), projects[k])
  {
    KeyResolves(projects, k);
  }

  /** An unlisted `?repo=` value is shown under the default owner, whole:
      even an `owner/repo` value is not split, since the stand-in has a repo. */
  lemma SyntheticPage(projects: seq<Project>, param: string)
    requires |projects| > 0 && param != ""
    requires NoMatch(projects, param)
    ensures var pg := RenderPage(projects, param);
      && pg.Found? && pg.view.heading == param
      && pg.view.repoUrl == GITHUB + DEFAULT_OWNER + "/" + param
      && pg.view.caseStudy == Some(CASE_STUDIES + param + ".md")
  {
    var stand := SyntheticProject(param);
    var res := Resolve(projects, param);
    assert res == Synthetic(stand);
    StandInView(projects, param, res);
    assert RenderPage(projects, param) == Show(projects, param, res, stand);
  }

  /** The view of the stand-in for `param`, whatever led to it. */
  lemma StandInView(projects: seq<Project>, param: string, res: Resolution)
    requires param != ""
    ensures var v := Show(projects, param, res, SyntheticProject(param)).view;
      && v.heading == param
      && v.repoUrl == GITHUB + DEFAULT_OWNER + "/" + param
      && v.caseStudy == Some(CASE_STUDIES + param + ".md")
  {
    var stand := SyntheticProject(param);
    var pair := NormaliseRepoPair(param, stand);
    assert pair == RepoPair(DEFAULT_OWNER, param);
    assert Heading(stand, pair.repo) == param;
    assert RepoUrl(pair) == GITHUB + DEFAULT_OWNER + "/" + param;
    BlankCaseStudy(stand, param);
  }

  /** Without a `caseStudy` field, the case study is `<repo>.md`. */
  lemma BlankCaseStudy(p: Project, repo: string)
    requires p.caseStudy == "" && repo != ""
    ensures CaseStudyPath(p, repo) == Some(CASE_STUDIES + repo + ".md")
  {
    TrimOfTrimmed(p.caseStudy);
    assert CASE_STUDIES + (repo + ".md") == CASE_STUDIES + repo + ".md";
  }
}

=== FILE: seqs.dfy ===
/** Sequence operations shared by the pages: `Array.prototype.filter`, the
    first-occurrence de-duplication done with a `Set` of seen values, and the
    subsequence and first-index notions their contracts are stated in. */
module Seqs {
  import opened Wrappers

  /** `a` can be obtained from `b` by deleting elements, keeping their order. */
  ghost predicate IsSubseq<T(!new)>(a: seq<T>, b: seq<T>)
    decreases |b|
  {
    |a| == 0 || (|b| > 0 && ((a[0] == b[0] && IsSubseq(a[1..], b[1..])) || IsSubseq(a, b[1..])))
  }

  /** `list.filter(p)`: exactly the elements satisfying `p`, with their
      multiplicities, in input order. */
  function Filter<T(==,!new)>(s: seq<T>, p: T -> bool): (r: seq<T>)
    ensures |r| <= |s|
    ensures forall i :: 0 <= i < |r| ==> p(r[i])
    ensures forall x :: multiset(r)[x] == if p(x) then multiset(s)[x] else 0
    ensures IsSubseq(r, s)
  {
    if |s| == 0 then []
    else
      var rest := Filter(s[1..], p);
      assert s == [s[0]] + s[1..];
      if p(s[0]) then
        assert ([s[0]] + rest)[1..] == rest;
        [s[0]] + rest
      else rest
  }

  /** Membership in a filtered sequence. */
  lemma FilterMember<T(!new)>(s: seq<T>, p: T -> bool, x: T)
    ensures x in Filter(s, p) <==> x in s && p(x)
  {
    var r := Filter(s, p);
    assert x in r <==> multiset(r)[x] > 0;
    assert x in s <==> multiset(s)[x] > 0;
  }

  predicate Distinct<T(==)>(s: seq<T>) {
    forall i, j :: 0 <= i < j < |s| ==> s[i] != s[j]
  }

  /** Index of the first occurrence of `x`. */
  function FirstIndex<T(==,!new)>(s: seq<T>, x: T): (k: nat)
    requires x in s
    ensures k < |s| && s[k] == x && x !in s[..k]
  {
    if s[0] == x then 0 else 1 + FirstIndex(s[1..], x)
  }

  /** Appending elements does not move a first occurrence. */
  lemma FirstIndexPrefix<T(!new)>(s: seq<T>, t: seq<T>, x: T)
    requires x in s
    ensures x in s + t && FirstIndex(s + t, x) == FirstIndex(s, x)
  {
    var k := FirstIndex(s, x);
    assert (s + t)[k] == x;
    assert (s + t)[..k] == s[..k];
  }

  /** The values of `s` in order of first occurrence, each once: the
      `seen.has(v) / seen.add(v)` loop. */
  function Dedup<T(==,!new)>(s: seq<T>): (r: seq<T>)
    ensures Distinct(r)
    ensures forall x :: x in r <==> x in s
    ensures forall i, j :: 0 <= i < j < |r| ==> FirstIndex(s, r[i]) < FirstIndex(s, r[j])
  {
    if |s| == 0 then []
    else
      var init := s[..|s| - 1];
      var x := s[|s| - 1];
      var r := Dedup(init);
      assert s == init + [x];
      forall y | y in init
        ensures FirstIndex(s, y) == FirstIndex(init, y)
      {
        FirstIndexPrefix(init, [x], y);
      }
      if x in r then r
      else
        assert FirstIndex(s, x) == |s| - 1;
        r + [x]
  }

  /** A sequence is duplicate-free exactly when no value occurs twice in its multiset. */
  lemma {:induction false} DistinctIffSingleCounts<T(!new)>(s: seq<T>)
    ensures Distinct(s) <==> forall x :: multiset(s)[x] <= 1
  {
    if |s| > 0 {
      DistinctIffSingleCounts(s[1..]);
      assert s == [s[0]] + s[1..];
      if Distinct(s) {
        assert s[0] !in s[1..];
        assert Distinct(s[1..]);
      } else {
        var i, j :| 0 <= i < j < |s| && s[i] == s[j];
        if i == 0 {
          assert s[1..][j - 1] == s[0];
          assert multiset(s)[s[0]] >= 2;
        } else {
          assert s[1..][i - 1] == s[1..][j - 1];
          assert !Distinct(s[1..]);
        }
      }
      if forall x :: multiset(s)[x] <= 1 {
        assert multiset(s) == multiset{s[0]} + multiset(s[1..]);
        assert multiset(s)[s[0]] == 1 + multiset(s[1..])[s[0]];
        assert forall x :: multiset(s[1..])[x] <= multiset(s)[x];
        forall i, j | 0 <= i < j < |s| ensures s[i] != s[j] {
          if i > 0 {
            assert s[i] == s[1..][i - 1] && s[j] == s[1..][j - 1];
          } else {
            assert s[j] == s[1..][j - 1];
          }
        }
      }
    }
  }

  /** Rearranging a duplicate-free sequence leaves it duplicate-free. */
  lemma DistinctPermutation<T(!new)>(a: seq<T>, b: seq<T>)
    requires Distinct(a)
    requires multiset(a) == multiset(b)
    ensures Distinct(b)
  {
    DistinctIffSingleCounts(a);
    DistinctIffSingleCounts(b);
  }

  /** Index of the first element satisfying `p`, if any. */
  function FirstWhere<T>(s: seq<T>, p: T -> bool): (r: Option<nat>)
    ensures r.None? <==> forall i :: 0 <= i < |s| ==> !p(s[i])
    ensures r.Some? ==> r.value < |s| && p(s[r.value]) && forall j :: 0 <= j < r.value ==> !p(s[j])
  {
    if |s| == 0 then None
    else if p(s[0]) then Some(0)
    else
      match FirstWhere(s[1..], p)
      case None => None
      case Some(k) => Some(k + 1)
  }
}

=== FILE: service_worker.dfy ===
/** The service worker's caching policy (`sw.js`): pre-cache on install,
    evict superseded caches on activate, and answer same-origin fetches
    network-first for navigations and cache-first for other GETs.

    The browser's `CacheStorage` is a value: bucket names in creation order
    and, per bucket, a map from request key (the same-origin URL) to the
    stored response. The network's answer to a request is a parameter; the
    fire-and-forget cache writes are taken to complete before the next event. */
module ServiceWorker {
  import opened Wrappers
  import Strings
  import Seqs

  const CACHE_VERSION: string := "v3"
  const STATIC_CACHE: string := "static-" + CACHE_VERSION

  /** The error page both fallbacks serve. */
  const FALLBACK_PAGE: string := "/500.html"

  /** Paths pre-cached at install time, in the order they are requested. */
  const CORE_ASSETS: seq<string> := [
    "/",
    "/index.html",
    "/projects.html",
    "/project.html",
    "/404.html",
    "/500.html",
    "/assets/site.css",
    "/assets/common.js",
    "/assets/index.js",
    "/assets/projects.js",
    "/assets/project.js"
  ]

  /** A response snapshot. Any settled `fetch` yields one, whatever its status. */
  datatype Response = Response(url: string, status: int, body: string)

  /** `response.ok`: a 2xx status, which `cache.addAll` insists on. */
  predicate IsOk(r: Response) {
    200 <= r.status <= 299
  }

  /** The parts of an intercepted request the worker reads. `url` is the cache
      key; `sameOrigin` is `new URL(url).origin === self.location.origin`;
      `accept` is the Accept header, `None` when absent. */
  datatype Request = Request(url: string, sameOrigin: bool, mode: string, httpMethod: string, accept: Option<string>)

  /** The origin's cache storage: bucket names in creation order and each bucket's entries. */
  datatype Storage = Storage(names: seq<string>, buckets: map<string, map<string, Response>>)

  /** Names are unique and name exactly the existing buckets. */
  ghost predicate Valid(st: Storage) {
    && (forall n :: multiset(st.names)[n] <= 1)
    && (forall n :: n in st.names <==> n in st.buckets)
  }

  /** The storage once this worker version has activated: only its own bucket may exist. */
  ghost predicate Active(st: Storage) {
    Valid(st) && forall n :: n in st.names ==> n == STATIC_CACHE
  }

  /** The entries of bucket `name`; a missing bucket has none. */
  function Bucket(st: Storage, name: string): map<string, Response> {
    if name in st.buckets then st.buckets[name] else map[]
  }

  /** First bucket, in creation order, holding `key`. */
  function MatchIn(names: seq<string>, buckets: map<string, map<string, Response>>, key: string): (r: Option<Response>)
    ensures r.None? <==> forall i :: 0 <= i < |names| ==> names[i] !in buckets || key !in buckets[names[i]]
    ensures r.Some? ==> exists i ::
      && 0 <= i < |names| && names[i] in buckets && key in buckets[names[i]] && buckets[names[i]][key] == r.value
      && forall j :: 0 <= j < i ==> names[j] !in buckets || key !in buckets[names[j]]
  {
    if |names| == 0 then None
    else if names[0] in buckets && key in buckets[names[0]] then Some(buckets[names[0]][key])
    else
      var r := MatchIn(names[1..], buckets, key);
      assert forall i :: 1 <= i < |names| ==> names[i] == names[1..][i - 1];
      r
  }

  /** `caches.match(key)` for a plain GET of a same-origin path. */
  function MatchKey(st: Storage, key: string): Option<Response> {
    MatchIn(st.names, st.buckets, key)
  }

  /** `caches.match(request)`: without `ignoreMethod` only GET requests can match. */
  function Match(st: Storage, req: Request): (r: Option<Response>)
    ensures req.httpMethod != "GET" ==> r.None?
    ensures req.httpMethod == "GET" ==> r == MatchKey(st, req.url)
  {
    if req.httpMethod == "GET" then MatchKey(st, req.url) else None
  }

  /** `caches.open(name)`: the bucket is created, empty and last in order, unless it exists. */
  function Open(st: Storage, name: string): (r: Storage)
    ensures name in r.buckets && Bucket(r, name) == Bucket(st, name)
    ensures forall n :: Bucket(r, n) == Bucket(st, n)
    ensures forall n :: n in st.names ==> n in r.names
    ensures forall n :: n in r.names ==> n in st.names || n == name
    ensures name in st.buckets ==> r == st
    ensures name !in st.buckets ==> r.names == st.names + [name]
    ensures Valid(st) ==> Valid(r)
  {
    if name in st.buckets then st
    else
      assert forall n :: n != name ==> Bucket(st.(buckets := st.buckets[name := map[]]), n) == Bucket(st, n);
      Storage(st.names + [name], st.buckets[name := map[]])
  }

  /** The Cache API refuses to store a response to a non-GET request or a partial (206) response. */
  predicate Storable(req: Request, resp: Response) {
    req.httpMethod == "GET" && resp.status != 206
  }

  /** Opening the current bucket and putting the response copy in it. A
      rejected `put` is ignored, so then only the opened bucket remains. */
  function Store(st: Storage, req: Request, resp: Response): (r: Storage)
    ensures Storable(req, resp) ==> Bucket(r, STATIC_CACHE) == Bucket(st, STATIC_CACHE)[req.url := resp]
    ensures !Storable(req, resp) ==> Bucket(r, STATIC_CACHE) == Bucket(st, STATIC_CACHE)
    ensures forall n :: n != STATIC_CACHE ==> Bucket(r, n) == Bucket(st, n)
    ensures forall n :: n in st.names ==> n in r.names
    ensures forall n :: n in r.names ==> n in st.names || n == STATIC_CACHE
    ensures Valid(st) ==> Valid(r)
  {
    var withStatic := Open(st, STATIC_CACHE);
    if Storable(req, resp) then
      withStatic.(buckets := withStatic.buckets[STATIC_CACHE := withStatic.buckets[STATIC_CACHE][req.url := resp]])
    else withStatic
  }

  // ---------------------------------------------------------------- install

  datatype InstallOutcome = Installed(storage: Storage) | InstallFailed(storage: Storage)

  /** A response `cache.addAll` accepts: an ok status that is not a partial 206. */
  predicate AddAllAccepts(r: Response) {
    IsOk(r) && r.status != 206
  }

  /** Every core asset was fetched with a response `addAll` accepts: the
      condition under which it stores them all. It stores none otherwise (an
      assumption about the browser, not something proved here). */
  predicate AllCoreFetched(network: map<string, Response>) {
    forall a :: a in CORE_ASSETS ==> a in network && AddAllAccepts(network[a])
  }

  /** The install handler: open `STATIC_CACHE` and `addAll(CORE_ASSETS)`.
      `network` maps each path whose fetch settled to its response. */
  function Install(st: Storage, network: map<string, Response>): (r: InstallOutcome)
    ensures r.Installed? <==> AllCoreFetched(network)
    ensures r.Installed? ==> forall a :: a in CORE_ASSETS ==> a in Bucket(r.storage, STATIC_CACHE) && Bucket(r.storage, STATIC_CACHE)[a] == network[a]
    ensures r.Installed? ==> Bucket(r.storage, STATIC_CACHE).Keys == Bucket(st, STATIC_CACHE).Keys + (set a | a in CORE_ASSETS)
    ensures r.InstallFailed? ==> Bucket(r.storage, STATIC_CACHE) == Bucket(st, STATIC_CACHE)
    ensures forall k :: k in Bucket(st, STATIC_CACHE) && k !in CORE_ASSETS ==> k in Bucket(r.storage, STATIC_CACHE) && Bucket(r.storage, STATIC_CACHE)[k] == Bucket(st, STATIC_CACHE)[k]
    ensures forall n :: n != STATIC_CACHE ==> Bucket(r.storage, n) == Bucket(st, n)
    ensures forall n :: n in st.names ==> n in r.storage.names
    ensures forall n :: n in r.storage.names ==> n in st.names || n == STATIC_CACHE
    ensures Valid(st) ==> Valid(r.storage)
  {
    var withStatic := Open(st, STATIC_CACHE);
    if AllCoreFetched(network) then
      var added := map a | a in CORE_ASSETS :: network[a];
      Installed(withStatic.(buckets := withStatic.buckets[STATIC_CACHE := withStatic.buckets[STATIC_CACHE] + added]))
    else InstallFailed(withStatic)
  }

  // ---------------------------------------------------------------- activate

  /** `caches.delete(name)`. */
  function Delete(st: Storage, name: string): (r: Storage)
    ensures forall n :: multiset(r.names)[n] == if n == name then 0 else multiset(st.names)[n]
    ensures r.buckets == st.buckets - {name}
  {
    Storage(Seqs.Filter(st.names, n => n != name), st.buckets - {name})
  }

  /** Deletes each named bucket in turn (`Promise.all(keys.map(delete))`). */
  function DeleteEach(st: Storage, doomed: seq<string>): (r: Storage)
    ensures forall n :: multiset(r.names)[n] == if n in doomed then 0 else multiset(st.names)[n]
    ensures forall n :: n in r.buckets <==> n in st.buckets && n !in doomed
    ensures forall n :: n in r.buckets ==> r.buckets[n] == st.buckets[n]
    decreases |doomed|
  {
    if |doomed| == 0 then st
    else
      var r := DeleteEach(Delete(st, doomed[0]), doomed[1..]);
      assert forall n :: n in doomed <==> n == doomed[0] || n in doomed[1..];
      r
  }

  /** The activate handler: delete every bucket whose name is not `STATIC_CACHE`. */
  function Activate(st: Storage): (r: Storage)
    requires Valid(st)
    ensures Active(r)
    ensures Bucket(r, STATIC_CACHE) == Bucket(st, STATIC_CACHE)
    ensures STATIC_CACHE in r.names <==> STATIC_CACHE in st.names
    ensures forall n :: n != STATIC_CACHE ==> n !in r.names && n !in r.buckets
  {
    var doomed := Seqs.Filter(st.names, n => n != STATIC_CACHE);
    Seqs.FilterMember(st.names, n => n != STATIC_CACHE, STATIC_CACHE);
    forall n ensures n in doomed <==> n in st.names && n != STATIC_CACHE {
      Seqs.FilterMember(st.names, n => n != STATIC_CACHE, n);
    }
    var r := DeleteEach(st, doomed);
    assert forall n :: n in r.names <==> multiset(r.names)[n] > 0;
    r
  }

  /** A sequence of one repeated name holds that name once per element. */
  lemma {:induction false} RepeatedNameCount(s: seq<string>, x: string)
    requires forall i :: 0 <= i < |s| ==> s[i] == x
    ensures multiset(s)[x] == |s|
  {
    if |s| > 0 {
      RepeatedNameCount(s[1..], x);
      assert s == [s[0]] + s[1..];
    }
  }

  /** The names left after activation: none, or `STATIC_CACHE` alone. */
  lemma ActiveNames(st: Storage)
    requires Active(st)
    ensures st.names == [] || st.names == [STATIC_CACHE]
  {
    assert forall i :: 0 <= i < |st.names| ==> st.names[i] in st.names;
    RepeatedNameCount(st.names, STATIC_CACHE);
  }

  /** Once active, a lookup consults `STATIC_CACHE` and nothing else. */
  lemma ActiveMatch(st: Storage, key: string)
    requires Active(st)
    ensures MatchKey(st, key) == if key in Bucket(st, STATIC_CACHE) then Some(Bucket(st, STATIC_CACHE)[key]) else None
  {
    ActiveNames(st);
    if st.names == [] {
      assert STATIC_CACHE !in st.buckets;
    }
  }

  // ---------------------------------------------------------------- fetch

  /** What the fetch handler does with the event: nothing (the browser fetches
      as usual), or `event.respondWith` a promise that settles to a response or
      to `undefined` (which the page sees as a failed fetch). */
  datatype Handling = PassThrough | RespondWith(response: Option<Response>)

  /** The handling, the storage once the handler's cache writes have landed,
      and whether the handler called `fetch` itself. */
  datatype FetchOutcome = FetchOutcome(handling: Handling, storage: Storage, networkUsed: bool)

  /** The request asks for HTML: its Accept header, empty when absent,
      contains `text/html` somewhere. */
  function AcceptsHtml(req: Request): (b: bool)
    ensures req.accept.None? ==> !b
    ensures b <==> exists i :: Strings.OccursAt(req.accept.GetOr(""), "text/html", i)
  {
    Strings.ContainsIffOccurs(req.accept.GetOr(""), "text/html");
    Strings.Contains(req.accept.GetOr(""), "text/html")
  }

  /** The navigation fallback: the cached entry for the request, else the cached error page. */
  function NavigationFallback(st: Storage, req: Request): (r: Option<Response>)
    ensures Match(st, req).Some? ==> r == Match(st, req)
    ensures Match(st, req).None? ==> r == MatchKey(st, FALLBACK_PAGE)
  {
    match Match(st, req)
    case Some(cached) => Some(cached)
    case None => MatchKey(st, FALLBACK_PAGE)
  }

  /** Navigations: network first, caching what the network returns; when the
      network fails, the cached page or else the cached error page. */
  function NetworkFirst(st: Storage, req: Request, network: Option<Response>): (r: FetchOutcome)
    ensures r.handling.RespondWith? && r.networkUsed
    ensures network.Some? ==> r.handling.response == network && r.storage == Store(st, req, network.value)
    ensures network.Some? && Storable(req, network.value) ==>
      req.url in Bucket(r.storage, STATIC_CACHE) && Bucket(r.storage, STATIC_CACHE)[req.url] == network.value
    ensures network.None? ==> r.storage == st && r.handling.response == NavigationFallback(st, req)
  {
    match network
    case Some(resp) => FetchOutcome(RespondWith(Some(resp)), Store(st, req, resp), true)
    case None => FetchOutcome(RespondWith(NavigationFallback(st, req)), st, true)
  }

  /** Other same-origin GETs: the cached entry if any, without touching the
      network; else the network's response, cached; else the error page for
      HTML-accepting requests and `undefined` for the rest. */
  function CacheFirst(st: Storage, req: Request, network: Option<Response>): (r: FetchOutcome)
    ensures r.handling.RespondWith?
    ensures Match(st, req).Some? ==> r == FetchOutcome(RespondWith(Match(st, req)), st, false)
    ensures Match(st, req).None? && network.Some? ==>
      r.handling.response == network && r.networkUsed && r.storage == Store(st, req, network.value)
    ensures Match(st, req).None? && network.None? ==> r.storage == st && r.networkUsed
    ensures Match(st, req).None? && network.None? ==>
      (r.handling.response.Some? ==> AcceptsHtml(req) && r.handling.response == MatchKey(st, FALLBACK_PAGE))
    ensures Match(st, req).None? && network.None? && AcceptsHtml(req) ==> r.handling.response == MatchKey(st, FALLBACK_PAGE)
  {
    match Match(st, req)
    case Some(cached) => FetchOutcome(RespondWith(Some(cached)), st, false)
    case None =>
      match network
      case Some(resp) => FetchOutcome(RespondWith(Some(resp)), Store(st, req, resp), true)
      case None => FetchOutcome(RespondWith(if AcceptsHtml(req) then MatchKey(st, FALLBACK_PAGE) else None), st, true)
  }

  /** The fetch handler: cross-origin requests and same-origin requests that are
      neither navigations nor GETs are left to the browser, untouched. The
      navigation test comes before the method test. */
  function HandleFetch(st: Storage, req: Request, network: Option<Response>): (r: FetchOutcome)
    ensures r.handling.PassThrough? <==> !req.sameOrigin || (req.mode != "navigate" && req.httpMethod != "GET")
    ensures r.handling.PassThrough? ==> r.storage == st && !r.networkUsed
    ensures req.sameOrigin && req.mode == "navigate" ==> r == NetworkFirst(st, req, network)
    ensures req.sameOrigin && req.mode != "navigate" && req.httpMethod == "GET" ==> r == CacheFirst(st, req, network)
    ensures forall n :: n in st.names ==> n in r.storage.names
    ensures forall n :: n in r.storage.names ==> n in st.names || n == STATIC_CACHE
    ensures forall k :: k in Bucket(st, STATIC_CACHE) ==> k in Bucket(r.storage, STATIC_CACHE)
    ensures Valid(st) ==> Valid(r.storage)
  {
    if !req.sameOrigin then FetchOutcome(PassThrough, st, false)
    else if req.mode == "navigate" then NetworkFirst(st, req, network)
    else if req.httpMethod == "GET" then CacheFirst(st, req, network)
    else FetchOutcome(PassThrough, st, false)
  }

  // ---------------------------------------------------------------- lifecycle

  /** One intercepted request and what the network would answer. */
  datatype FetchEvent = FetchEvent(request: Request, network: Option<Response>)

  /** The storage after the worker handles `events` in order. */
  function Serve(st: Storage, events: seq<FetchEvent>): Storage
    decreases |events|
  {
    if |events| == 0 then st
    else Serve(HandleFetch(st, events[0].request, events[0].network).storage, events[1..])
  }

  /** Serving fetches keeps the storage active and never drops a stored key. */
  lemma {:induction false} ServeKeepsEntries(st: Storage, events: seq<FetchEvent>)
    requires Active(st)
    ensures Active(Serve(st, events))
    ensures forall k :: k in Bucket(st, STATIC_CACHE) ==> k in Bucket(Serve(st, events), STATIC_CACHE)
    decreases |events|
  {
    if |events| != 0 {
      var next := HandleFetch(st, events[0].request, events[0].network).storage;
      ServeKeepsEntries(next, events[1..]);
    }
  }

  /** After a successful install and activation, however many requests have
      been served since, an offline navigation is always answered: by the
      cached page or by the pre-cached error page. */
  lemma OfflineNavigationAnswered(st: Storage, network: map<string, Response>, events: seq<FetchEvent>, req: Request)
    requires Valid(st)
    requires Install(st, network).Installed?
    requires req.sameOrigin && req.mode == "navigate"
    ensures
      var served := Serve(Activate(Install(st, network).storage), events);
      HandleFetch(served, req, None).handling.response.Some?
  {
    var installed := Install(st, network).storage;
    var active := Activate(installed);
    assert FALLBACK_PAGE in CORE_ASSETS;
    ServeKeepsEntries(active, events);
    var served := Serve(active, events);
    ActiveMatch(served, FALLBACK_PAGE);
  }

  /** A GET navigation the network answered with a storable (non-206)
      response is served from the cache the next time the network fails. */
  lemma OnlineThenOffline(st: Storage, req: Request, resp: Response)
    requires Active(st)
    requires req.sameOrigin && req.mode == "navigate" && Storable(req, resp)
    ensures
      var online := HandleFetch(st, req, Some(resp));
      online.handling.response == Some(resp)
      && HandleFetch(online.storage, req, None).handling.response == Some(resp)
  {
    var online := HandleFetch(st, req, Some(resp));
    ActiveMatch(online.storage, req.url);
  }
}

=== FILE: site_data.dfy ===
/** The records the pages read from the site's JSON data files. A field that
    is absent, `null` or empty is represented by the empty string (or the
    empty list, `false`, `0`): every script reads such fields through
    `field || default`, which treats all of these alike. */
module SiteData {
  import Seqs

  /** The owner assumed for a project that names none. */
  const DEFAULT_OWNER: string := "GregoryCarberry"

  /** One entry of `data/projects.json`. `updated` is the parsed timestamp of
      the `updated` field, `0` when absent. */
  datatype Project = Project(
    title: string,
    blurb: string,
    tags: seq<string>,
    featured: bool,
    updated: int,
    owner: string,
    repo: string,
    page: string,
    link: string,
    caseStudy: string,
    demo: string,
    liveDemo: string,
    url: string)

  /** The project's owner, the default owner when it names none. */
  function OwnerOf(p: Project): (o: string)
    ensures o != ""
    ensures p.owner != "" ==> o == p.owner
    ensures p.owner == "" ==> o == DEFAULT_OWNER
  {
    if p.owner == "" then DEFAULT_OWNER else p.owner
  }

  /** One entry of `data/links.json`; `text` is its `label` field. */
  datatype Link = Link(text: string, href: string, slot: string, variant: string)

  /** The links of one `slot`, in file order, a repeated link as often as it
      is listed. */
  function InSlot(links: seq<Link>, slot: string): (r: seq<Link>)
    ensures forall i :: 0 <= i < |r| ==> r[i].slot == slot
    ensures forall l :: multiset(r)[l] == if l.slot == slot then multiset(links)[l] else 0
    ensures forall l :: l in r <==> l in links && l.slot == slot
    ensures Seqs.IsSubseq(r, links)
  {
    var r := Seqs.Filter(links, (l: Link) => l.slot == slot);
    forall l ensures l in r <==> l in links && l.slot == slot {
      Seqs.FilterMember(links, (l: Link) => l.slot == slot, l);
    }
    r
  }

  /** One entry of `data/timeline.json`. */
  datatype TimelineItem = TimelineItem(
    category: string,
    date: string,
    when: string,
    title: string,
    text: string,
    summary: string)

  /** One entry of `data/highlights.json`: a bare string, an object, or any other JSON value. */
  datatype Highlight =
    | TextHighlight(text: string)
    | ObjectHighlight(labelField: string, textField: string)
    | OtherHighlight
}

=== FILE: sorting.dfy ===
/** `Array.prototype.sort` with a comparator, modelled as a stable insertion
    sort driven by the comparator's "not after" relation `leq(a, b)`, which
    stands for `compare(a, b) <= 0`. */
module Sorting {

  /** The comparators the site passes to `sort` are total preorders. */
  ghost predicate TotalPreorder<T(!new)>(leq: (T, T) -> bool) {
    && (forall a, b :: leq(a, b) || leq(b, a))
    && (forall a, b, c :: leq(a, b) && leq(b, c) ==> leq(a, c))
  }

  /** Every element is "not after" every later one. */
  ghost predicate Sorted<T>(s: seq<T>, leq: (T, T) -> bool) {
    forall i, j :: 0 <= i < j < |s| ==> leq(s[i], s[j])
  }

  /** Places `x` in front of the first element it is not after. */
  function Insert<T(==)>(x: T, s: seq<T>, leq: (T, T) -> bool): (r: seq<T>)
    ensures multiset(r) == multiset(s) + multiset{x}
  {
    if |s| == 0 then [x]
    else if leq(x, s[0]) then [x] + s
    else
      assert s == [s[0]] + s[1..];
      [s[0]] + Insert(x, s[1..], leq)
  }

  /** The sorted copy returned by `[...list].sort(compare)`; the input is untouched. */
  function Sort<T(==)>(s: seq<T>, leq: (T, T) -> bool): (r: seq<T>)
    ensures multiset(r) == multiset(s)
    ensures |r| == |s|
  {
    if |s| == 0 then []
    else
      assert s == [s[0]] + s[1..];
      Insert(s[0], Sort(s[1..], leq), leq)
  }

  lemma {:induction false} InsertSorted<T(!new)>(x: T, s: seq<T>, leq: (T, T) -> bool)
    requires TotalPreorder(leq)
    requires Sorted(s, leq)
    ensures Sorted(Insert(x, s, leq), leq)
  {
    if |s| != 0 && !leq(x, s[0]) {
      var tail := Insert(x, s[1..], leq);
      InsertSorted(x, s[1..], leq);
      assert leq(s[0], x);
      forall k | 0 <= k < |tail| ensures leq(s[0], tail[k]) {
        assert tail[k] in multiset(tail);
        assert tail[k] == x || tail[k] in multiset(s[1..]);
        if tail[k] != x {
          var m :| 0 <= m < |s[1..]| && s[1..][m] == tail[k];
          assert s[m + 1] == tail[k];
        }
      }
    }
  }

  /** The sort yields an ordered result. */
  lemma {:induction false} SortSorted<T(!new)>(s: seq<T>, leq: (T, T) -> bool)
    requires TotalPreorder(leq)
    ensures Sorted(Sort(s, leq), leq)
  {
    if |s| != 0 {
      SortSorted(s[1..], leq);
      InsertSorted(s[0], Sort(s[1..], leq), leq);
    }
  }
}

=== FILE: strings.dfy ===
/** String primitives the site's scripts lean on: `toLowerCase`, `includes`,
    `startsWith`, `join`, `split`, `trim`, number-to-text conversion and the
    collation order used by `localeCompare`. */
module Strings {

  // ---------------------------------------------------------------- case

  /** Upper-case letters; `toLowerCase` is modelled on the ASCII range. */
  predicate IsUpper(c: char) {
    'A' <= c <= 'Z'
  }

  /** An upper-case letter moves to its lower-case partner, 32 code points
      on; every other character is kept. */
  function LowerChar(c: char): (d: char)
    ensures !IsUpper(d)
    ensures IsUpper(c) ==> d as int == c as int + 32
    ensures !IsUpper(c) ==> d == c
  {
    if IsUpper(c) then (c as int + 32) as char else c
  }

  /** `String.prototype.toLowerCase`. */
  function Lower(s: string): (r: string)
    ensures |r| == |s|
    ensures forall i :: 0 <= i < |s| ==> r[i] == LowerChar(s[i])
  {
    seq(|s|, i requires 0 <= i < |s| => LowerChar(s[i]))
  }

  /** Lower-casing commutes with concatenation. */
  lemma LowerConcat(a: string, b: string)
    ensures Lower(a + b) == Lower(a) + Lower(b)
  {
    assert forall i :: 0 <= i < |a + b| ==> Lower(a + b)[i] == (Lower(a) + Lower(b))[i];
  }

  /** Lower-casing a lower-cased string changes nothing. */
  lemma LowerIdempotent(s: string)
    ensures Lower(Lower(s)) == Lower(s)
  {
  }

  /** `a` and `b` are equal up to the case of their letters, compared
      character by character. */
  predicate SameIgnoringCase(a: string, b: string) {
    |a| == |b| && forall i :: 0 <= i < |a| ==> LowerChar(a[i]) == LowerChar(b[i])
  }

  /** Comparing lower-cased strings is comparing characters up to case. */
  lemma LowerEqIff(a: string, b: string)
    ensures Lower(a) == Lower(b) <==> SameIgnoringCase(a, b)
  {
    if SameIgnoringCase(a, b) {
      assert forall i :: 0 <= i < |a| ==> Lower(a)[i] == Lower(b)[i];
    }
  }

  // ---------------------------------------------------------------- search

  /** `s.startsWith(p)`. */
  predicate StartsWith(s: string, p: string) {
    |p| <= |s| && s[..|p|] == p
  }

  /** `t` occurs in `s` at offset `i`. */
  predicate OccursAt(s: string, t: string, i: int) {
    0 <= i && i + |t| <= |s| && s[i..i + |t|] == t
  }

  /** `s.includes(t)`. */
  predicate Contains(s: string, t: string)
    decreases |s|
  {
    StartsWith(s, t) || (|s| > 0 && Contains(s[1..], t))
  }

  /** `includes` holds exactly when the needle occurs at some offset. */
  lemma {:induction false} ContainsIffOccurs(s: string, t: string)
    ensures Contains(s, t) <==> exists i :: OccursAt(s, t, i)
    decreases |s|
  {
    if StartsWith(s, t) {
      assert OccursAt(s, t, 0);
    } else if |s| == 0 {
      forall i | OccursAt(s, t, i) ensures false {
      }
    } else {
      ContainsIffOccurs(s[1..], t);
      if Contains(s[1..], t) {
        var i :| OccursAt(s[1..], t, i);
        assert s[1..][i..i + |t|] == s[i + 1..i + 1 + |t|];
        assert OccursAt(s, t, i + 1);
      }
      if i :| OccursAt(s, t, i) {
        assert i != 0;
        assert s[1..][i - 1..i - 1 + |t|] == s[i..i + |t|];
        assert OccursAt(s[1..], t, i - 1);
      }
    }
  }

  /** Every string contains the empty string. */
  lemma ContainsEmpty(s: string)
    ensures Contains(s, "")
  {
    assert StartsWith(s, "");
  }

  // ---------------------------------------------------------------- join / split

  /** `parts.join(sep)`. */
  function Join(parts: seq<string>, sep: string): (r: string)
    ensures |parts| == 0 ==> r == ""
    ensures |parts| == 1 ==> r == parts[0]
  {
    if |parts| == 0 then ""
    else if |parts| == 1 then parts[0]
    else parts[0] + sep + Join(parts[1..], sep)
  }

  /** Position of the first `c` in `s`. */
  function IndexOf(s: string, c: char): (k: nat)
    requires c in s
    ensures k < |s| && s[k] == c && c !in s[..k]
  {
    if s[0] == c then 0 else 1 + IndexOf(s[1..], c)
  }

  /** `s.split(c)` for a one-character separator: the maximal runs between separators. */
  function Split(s: string, c: char): (r: seq<string>)
    ensures |r| >= 1
    ensures forall i :: 0 <= i < |r| ==> c !in r[i]
    ensures c in s <==> |r| >= 2
    decreases |s|
  {
    if c !in s then [s]
    else
      var k := IndexOf(s, c);
      [s[..k]] + Split(s[k + 1..], c)
  }

  /** Joining the pieces of a split with the separator restores the string. */
  lemma {:induction false} JoinSplit(s: string, c: char)
    ensures Join(Split(s, c), [c]) == s
    decreases |s|
  {
    if c in s {
      var k := IndexOf(s, c);
      var rest := Split(s[k + 1..], c);
      JoinSplit(s[k + 1..], c);
      assert Split(s, c) == [s[..k]] + rest;
      assert ([s[..k]] + rest)[1..] == rest;
      assert Join(Split(s, c), [c]) == s[..k] + [c] + Join(rest, [c]);
      assert s == s[..k] + [c] + s[k + 1..];
    }
  }

  /** Splitting a join of separator-free pieces gives the pieces back. */
  lemma {:induction false} SplitJoin(parts: seq<string>, c: char)
    requires |parts| >= 1
    requires forall i :: 0 <= i < |parts| ==> c !in parts[i]
    ensures Split(Join(parts, [c]), c) == parts
  {
    if |parts| > 1 {
      var p := parts[0];
      var tail := Join(parts[1..], [c]);
      var s := Join(parts, [c]);
      assert s == p + [c] + tail;
      assert s[|p|] == c;
      assert s[..|p|] == p;
      assert IndexOf(s, c) == |p|;
      assert s[|p| + 1..] == tail;
      SplitJoin(parts[1..], c);
      assert parts == [p] + parts[1..];
    }
  }

  // ---------------------------------------------------------------- trim

  /** The characters `String.prototype.trim` removes: ECMAScript WhiteSpace and LineTerminator. */
  predicate IsWhitespace(c: char) {
    || c == '\t' || c == '\n' || c == '\U{000B}' || c == '\U{000C}' || c == '\r' || c == ' '
    || c == '\U{00A0}' || c == '\U{1680}' || ('\U{2000}' <= c <= '\U{200A}')
    || c == '\U{2028}' || c == '\U{2029}' || c == '\U{202F}' || c == '\U{205F}'
    || c == '\U{3000}' || c == '\U{FEFF}'
  }

  predicate AllWhitespace(s: string) {
    forall i :: 0 <= i < |s| ==> IsWhitespace(s[i])
  }

  /** Number of leading whitespace characters. */
  function LeadingSpace(s: string): (k: nat)
    ensures k <= |s|
    ensures AllWhitespace(s[..k])
    ensures k == |s| || !IsWhitespace(s[k])
  {
    if |s| > 0 && IsWhitespace(s[0]) then 1 + LeadingSpace(s[1..]) else 0
  }

  /** Number of trailing whitespace characters. */
  function TrailingSpace(s: string): (k: nat)
    ensures k <= |s|
    ensures AllWhitespace(s[|s| - k..])
    ensures k == |s| || !IsWhitespace(s[|s| - k - 1])
  {
    if |s| > 0 && IsWhitespace(s[|s| - 1]) then 1 + TrailingSpace(s[..|s| - 1]) else 0
  }

  /** `r` is `s` with the whitespace `s[..i]` before it and only whitespace after it. */
  predicate IsTrimOf(s: string, r: string, i: int) {
    0 <= i && i + |r| <= |s| && s[i..i + |r|] == r
    && AllWhitespace(s[..i]) && AllWhitespace(s[i + |r|..])
  }

  /** `s.trim()`. */
  function Trim(s: string): (r: string)
    ensures exists i :: IsTrimOf(s, r, i)
    ensures r == "" || (!IsWhitespace(r[0]) && !IsWhitespace(r[|r| - 1]))
  {
    var a := LeadingSpace(s);
    var t := s[a..];
    var b := TrailingSpace(t);
    var r := t[..|t| - b];
    assert s[a..a + |r|] == r;
    assert s[a + |r|..] == t[|t| - b..];
    assert IsTrimOf(s, r, a);
    r
  }

  /** Trimming twice is trimming once. */
  lemma TrimIdempotent(s: string)
    ensures Trim(Trim(s)) == Trim(s)
  {
    var r := Trim(s);
    assert LeadingSpace(r) == 0;
    assert r[0..] == r;
    assert TrailingSpace(r) == 0;
  }

  /** A string with no surrounding whitespace is its own trim. */
  lemma TrimOfTrimmed(s: string)
    requires s == "" || (!IsWhitespace(s[0]) && !IsWhitespace(s[|s| - 1]))
    ensures Trim(s) == s
  {
    assert LeadingSpace(s) == 0;
    assert s[0..] == s;
    assert TrailingSpace(s) == 0;
  }

  // ---------------------------------------------------------------- numbers

  predicate IsDigit(c: char) {
    '0' <= c <= '9'
  }

  function DigitChar(d: nat): (c: char)
    requires d < 10
    ensures IsDigit(c) && c as int - '0' as int == d
  {
    ('0' as int + d) as char
  }

  /** Decimal text of a natural number, as template-literal interpolation prints it. */
  function NatToString(n: nat): (r: string)
    ensures |r| >= 1
    ensures forall i :: 0 <= i < |r| ==> IsDigit(r[i])
    ensures |r| > 1 ==> r[0] != '0'
  {
    if n < 10 then [DigitChar(n)] else NatToString(n / 10) + [DigitChar(n % 10)]
  }

  function DigitValue(c: char): (d: nat)
    requires IsDigit(c)
    ensures d < 10
  {
    c as int - '0' as int
  }

  /** Value of a string of decimal digits. */
  function DigitsValue(s: string): nat
    requires forall i :: 0 <= i < |s| ==> IsDigit(s[i])
  {
    if |s| == 0 then 0 else 10 * DigitsValue(s[..|s| - 1]) + DigitValue(s[|s| - 1])
  }

  /** Reading the decimal text back gives the number. */
  lemma {:induction false} NatToStringRoundTrip(n: nat)
    ensures DigitsValue(NatToString(n)) == n
  {
    if n >= 10 {
      var r := NatToString(n);
      NatToStringRoundTrip(n / 10);
      assert r[..|r| - 1] == NatToString(n / 10);
    }
  }

  /** Distinct numbers print differently. */
  lemma NatToStringInjective(m: nat, n: nat)
    requires NatToString(m) == NatToString(n)
    ensures m == n
  {
    NatToStringRoundTrip(m);
    NatToStringRoundTrip(n);
  }

  // ---------------------------------------------------------------- collation

  /** Code-point lexicographic order, standing in for `localeCompare(a, b) <= 0`. */
  predicate StrLeq(a: string, b: string)
    decreases |a|
  {
    |a| == 0 || (|b| != 0 && (a[0] < b[0] || (a[0] == b[0] && StrLeq(a[1..], b[1..]))))
  }

  lemma {:induction false} StrLeqReflexive(a: string)
    ensures StrLeq(a, a)
    decreases |a|
  {
    if |a| != 0 {
      StrLeqReflexive(a[1..]);
    }
  }

  lemma {:induction false} StrLeqTotal(a: string, b: string)
    ensures StrLeq(a, b) || StrLeq(b, a)
    decreases |a|
  {
    if |a| != 0 && |b| != 0 && a[0] == b[0] {
      StrLeqTotal(a[1..], b[1..]);
    }
  }

  lemma {:induction false} StrLeqTransitive(a: string, b: string, c: string)
    requires StrLeq(a, b) && StrLeq(b, c)
    ensures StrLeq(a, c)
    decreases |a|
  {
    if |a| != 0 && a[0] == b[0] && b[0] == c[0] {
      StrLeqTransitive(a[1..], b[1..], c[1..]);
    }
  }

  lemma {:induction false} StrLeqAntisymmetric(a: string, b: string)
    requires StrLeq(a, b) && StrLeq(b, a)
    ensures a == b
    decreases |a|
  {
    if |a| != 0 {
      StrLeqAntisymmetric(a[1..], b[1..]);
      assert a == [a[0]] + a[1..];
      assert b == [b[0]] + b[1..];
    }
  }
}

=== FILE: tagline.dfy ===
/** The rotating tagline on the about page, `assets/about.js`: the first
    tagline is shown at once, and every ten seconds the next one, cyclically. */
module Tagline {
  import opened Wrappers

  const TAGLINES: seq<string> := [
    "Turning learning, labs, and late-night debugging into practical cloud skills.",
    "Building reliable systems one small, well-documented step at a time.",
    "Bridging the gap between support tickets and cloud architecture.",
    "Happy to say “I don’t know yet” — as long as I can add “here’s how I’ll find out.”"]

  /** The rotator after loading: the shown tagline's index, its text, and
      whether the ten-second interval was started. */
  datatype Rotator = Rotator(index: nat, shown: string, scheduled: bool)

  /** Loading the page: nothing for an empty list; otherwise the first
      tagline, with the interval started only when there is another to show. */
  function Start(taglines: seq<string>): (r: Option<Rotator>)
    ensures r.None? <==> |taglines| == 0
    ensures r.Some? ==> r.value.index == 0 && r.value.shown == taglines[0]
    ensures r.Some? ==> (r.value.scheduled <==> |taglines| > 1)
  {
    if |taglines| == 0 then None
    else Some(Rotator(0, taglines[0], |taglines| != 1))
  }

  /** One tick of the interval, which runs only with two or more taglines. */
  function Tick(taglines: seq<string>, r: Rotator): (r': Rotator)
    requires |taglines| > 1 && r.index < |taglines|
    ensures r'.index < |taglines| && r'.shown == taglines[r'.index]
    ensures r'.index == 0 <==> r.index == |taglines| - 1
    ensures r.index < |taglines| - 1 ==> r'.index == r.index + 1
    ensures r'.scheduled == r.scheduled
  {
    var i := (r.index + 1) % |taglines|;
    Rotator(i, taglines[i], r.scheduled)
  }

  /** The rotator after `ticks` ticks. */
  function Run(taglines: seq<string>, ticks: nat): (r: Rotator)
    requires |taglines| > 1
    ensures r.index < |taglines| && r.shown == taglines[r.index]
    ensures r.scheduled
  {
    if ticks == 0 then Start(taglines).value else Tick(taglines, Run(taglines, ticks - 1))
  }

  /** During the first round the `k`-th tick shows tagline `k`. */
  lemma {:induction false} RunFirstRound(taglines: seq<string>, ticks: nat)
    requires |taglines| > 1 && ticks < |taglines|
    ensures Run(taglines, ticks).index == ticks
  {
    if ticks > 0 {
      RunFirstRound(taglines, ticks - 1);
    }
  }

  /** The rotation repeats with a period of exactly the number of taglines. */
  lemma {:induction false} RunPeriodic(taglines: seq<string>, ticks: nat)
    requires |taglines| > 1
    ensures Run(taglines, ticks + |taglines|) == Run(taglines, ticks)
  {
    if ticks == 0 {
      RunFirstRound(taglines, |taglines| - 1);
    } else {
      RunPeriodic(taglines, ticks - 1);
    }
  }

  /** Every tagline is shown during the first round, and after exactly as
      many ticks as there are taglines the first one is back. */
  lemma RotationCoversAll(taglines: seq<string>)
    requires |taglines| > 1
    ensures forall k :: 0 <= k < |taglines| ==> Run(taglines, k).index == k
    ensures Run(taglines, |taglines|) == Start(taglines).value
  {
    forall k | 0 <= k < |taglines| ensures Run(taglines, k).index == k {
      RunFirstRound(taglines, k);
    }
    RunPeriodic(taglines, 0);
  }

  /** The site's own list rotates. */
  lemma SiteRotates()
    ensures Start(TAGLINES).Some? && Start(TAGLINES).value.scheduled
    ensures Run(TAGLINES, 3).shown == TAGLINES[3]
    ensures Run(TAGLINES, 4).shown == TAGLINES[0]
  {
    RunFirstRound(TAGLINES, 3);
    RunPeriodic(TAGLINES, 0);
  }
}

=== FILE: wrappers.dfy ===
/** The Option type used wherever the site's scripts see `null` or `undefined`. */
module Wrappers {

  datatype Option<+T> = None | Some(value: T) {

    /** The value held, or `default` when there is none (`x ?? default`). */
    function GetOr(default: T): T {
      match this
      case Some(v) => v
      case None => default
    }
  }
}
